=== FILE: README.md ===
# EventPilot core in Dafny

EventPilot plans corporate events. A voice agent collects the event details over the phone. A venue search finds and prices candidate venues and emails the customer. A negotiation agent calls the venues. A small web front end signs users in.

This project models the deterministic core of that system as pure Dafny functions over immutable datatypes, and proves what each step promises. Every external service is replaced by plain input data or a function-typed parameter:

- Google Maps places and details are inputs.
- E.164 phone normalisation is a parameter that may raise, may reject a number, or gives its E.164 text.
- The web search and extract service is a parameter, and so is the language model.
- The voice platform's `calls.create` and `calls.get` answers are sequences.
- Resend is a parameter.
- The Supabase and MongoDB tables are sequences of rows in database order.

Modules follow the source files:

| module | file | models |
|---|---|---|
| `NegotiationAgent` | negotiation_agent.dfy | agent construction, the call batch, append-only call histories keyed by venue name, polling for call completion |
| `NearbySearch` | nearby_search.dfy | the venue-type mapping, the filter/cap/normalise loop of `search_nearby_venues`, the pricing query |
| `VenueSearch` | venue_search.dfy | state codes from the code file, the search query with its inclusive day count, venue collection, contact lookup, the `save_venues` filter |
| `VenueSearchUtils` | venue_search_utils.dfy | the state-name table, venue rows of `process_venue_search`, email headers, the stored email row, the email thread as a conversation |
| `NegotiationEndpoints` | negotiation_endpoints.dfy | `get_past_negotiations` as a join over venues, negotiations and events, `web_search`, `webhook` |
| `EventDetails` | event_details.dfy | `get_user_information`, `save_user_information`, `save_event_details` |
| `ToolCalls` | tool_calls.dfy | the voice platform's tool-call payload and the one-result response envelope |
| `SyncUser` | sync_user.dfy | `syncUserToDatabase`: the display-name fallback chain, the outcome, the upsert on `id` |
| `Middleware` | middleware.dfy | the dashboard guard |
| `AuthCallback` | auth_callback.dfy | the sign-in callback's redirect decision |
| `Wrappers`, `Text`, `Seqs`, `Dates` | wrappers.dfy, text.dfy, seqs.dfy, dates.dfy | Option/Result and dictionary key lookup, string helpers, order-preserving filtering, proleptic Gregorian dates |

Where the code reads a key with a default, or where a null value makes it raise, the model distinguishes a missing key, a key holding null, and a key holding a value (`Wrappers.Field`). This covers the payload's `message`, `toolCalls`, `customer` and `customer.number`, the event document's `venues`, the place-details keys read with a fallback, and the email columns. A caller number holding null is not an error: the lookups filter on the text "None" and registration stores a null phone. Elsewhere a missing key and a null value are both None, because the code treats them alike. The few places where a null would raise but the model reads it as None are listed under "## Left out".

## Model

| member | source | states |
|---|---|---|
| NegotiationAgent.NewAgent | agents/negotiation_agent/negotiation_agent.py:22-33 | construction fails exactly when the id is not 24 hex digits (ObjectId's InvalidId), the event is missing, or the assistant id is unset or empty, checked in that order with the source's messages; otherwise the agent holds the event's venues (empty when the key is missing, null when it holds null) and the assistant id |
| NegotiationAgent.NewRecord | agents/negotiation_agent/negotiation_agent.py:103-110 | the history record carries the call id and status; its error is present exactly when the error text is non-empty |
| NegotiationAgent.FirstNamed | agents/negotiation_agent/negotiation_agent.py:113-117 | finds the first venue the `venues.name` filter matches, or reports that none does; a null key matches venues with null or missing names |
| NegotiationAgent.UpdateCallHistory | agents/negotiation_agent/negotiation_agent.py:100-121 | a history update only appends: names, phones and earlier records are unchanged, and the record lands on the first venue the name matches and on no other |
| NegotiationAgent.SharedNameGoesToFirst | agents/negotiation_agent/negotiation_agent.py:113-120 | with two venues sharing a name, a push for the later one never reaches it, because the positional update picks the first |
| NegotiationAgent.NamelessVenueHistoryLost | agents/negotiation_agent/negotiation_agent.py:41-92 | a venue without a name key has its record filed under "Unknown Venue" or "Unknown", so nothing changes when no venue carries those names |
| NegotiationAgent.CallVenue | agents/negotiation_agent/negotiation_agent.py:65-98 | without a phone nothing is written and no id is returned; a raising create re-raises with nothing written; a created call pushes one "initiated" record under the name and returns the id |
| NegotiationAgent.NegotiateOne | agents/negotiation_agent/negotiation_agent.py:40-61 | one loop step skips a venue without a phone and writes nothing for it; it reports initiated, no call id, or the error text, and histories only grow |
| NegotiationAgent.NegotiateOneReachesVenue | agents/negotiation_agent/negotiation_agent.py:50-92 | when the venue's name is unique, exactly the expected record is added to it: "initiated" with the call id, or "failed" with no id and the error text; other venues are unchanged |
| NegotiationAgent.NegotiateWithVenues | agents/negotiation_agent/negotiation_agent.py:35-61 | a null venues list raises the TypeError of `len`; otherwise every venue is processed, so one failure does not stop the batch; there is one disposition per venue in order, histories are append-only, and with distinct names each venue gains exactly its expected records |
| NegotiationAgent.NegotiateVenuesForEvent | agents/negotiation_agent/negotiation_agent.py:168-174 | fails exactly when construction fails, with its message, or when the event's venues are null; otherwise it reports every venue of the event, in order |
| NegotiationAgent.FirstStop | agents/negotiation_agent/negotiation_agent.py:139-160 | the index of the first answer within the budget that is a final status or an exception, and no earlier answer is one |
| NegotiationAgent.WaitForCallCompletion | agents/negotiation_agent/negotiation_agent.py:125-165 | returns the input call id; the status is the first final status seen, or "error" with the message of the first exception, or "timeout" when none occurs within the budget |
| NegotiationAgent.MoreBudgetSameReport | agents/negotiation_agent/negotiation_agent.py:139-149 | once an answer has stopped the loop, a longer timeout gives the same report |
| NegotiationAgent.FirstStopUnique | agents/negotiation_agent/negotiation_agent.py:139-144 | the stopping index is determined by the answers alone, for any budget that reaches it |
| NegotiationAgent.LaterObservationsIgnored | agents/negotiation_agent/negotiation_agent.py:144-160 | answers after the stopping one never affect the report |
| NearbySearch.PlaceType | agents/venue_searching_agent/agent.py:72-84 | hotel and resort map to lodging, nightclub to night_club, event space to event_venue; restaurant, bar and every unmapped type pass through lower-cased |
| NearbySearch.PlaceTypeIgnoresCase | agents/venue_searching_agent/agent.py:84 | a venue type and its lower-cased form search the same place type |
| NearbySearch.MakeVenue | agents/venue_searching_agent/agent.py:102-127 | the website is the part before the first '?' and holds no '?'; the phone is the normaliser's answer for the raw phone, which may be None; name and address fall back to the nearby result only when the details lack the key, and a null stays null; rating_count is 0 when the key is missing and null when it holds null; the other fields are copied |
| NearbySearch.SearchNearbyVenues | agents/venue_searching_agent/agent.py:87-129 | the search raises exactly the exception of the first reached place whose phone cannot be parsed, before the cap; otherwise at most max_results venues, every one from an operational place with a valid-or-rejected phone and a website, in input order, built by MakeVenue; an eligible or raising place is passed over only once the cap has been reached |
| NearbySearch.PricingQuery | agents/venue_searching_agent/agent.py:146 | the pricing question is the fixed phrase, the venue name, then " in city, state" |
| NearbySearch.PricingQueryNamesVenue | agents/venue_searching_agent/agent.py:146 | two venue names that differ give different questions, for the same city and state |
| VenueSearch.InvertCodes | agents/venue_searching_agent/venue_searching_agent.py:29 | the inverted code table has every state name as a key, and maps each name to a code listed with it |
| VenueSearch.LastPairWins | agents/venue_searching_agent/venue_searching_agent.py:29 | a name maps to the code of its last listing in the file |
| VenueSearch.TwoLetterStateCode | agents/venue_searching_agent/venue_searching_agent.py:27-33 | a listed state name gets a code listed with it; any other input is returned unchanged |
| VenueSearch.DayCountInclusive | agents/venue_searching_agent/venue_searching_agent.py:117-119 | the day count is 1 exactly for a same-day event, above 1 exactly when the end is later, and below 1 exactly when the end is earlier |
| VenueSearch.DayCountOfNextDay | agents/venue_searching_agent/venue_searching_agent.py:119 | an event from one day to the next spans two days, across month and year ends |
| VenueSearch.DaysText | agents/venue_searching_agent/venue_searching_agent.py:121-124 | begins with the number, and ends in " days" exactly when the count is above 1, else in " day" |
| VenueSearch.VenueTypeText | agents/venue_searching_agent/venue_searching_agent.py:111 | "Corporate Event" when the key is missing, Python's "None" when it holds null, else the stored value |
| VenueSearch.PlanSearch | agents/venue_searching_agent/venue_searching_agent.py:111-126 | the query is "type venues in city, code for N guests and D under $B", where the code comes from the state-code lookup, D is DaysText of the inclusive day count, and N and B are the event's attendees and budget |
| VenueSearch.DaysTextDeterminesDays | agents/venue_searching_agent/venue_searching_agent.py:121-124 | different day counts give different days texts |
| VenueSearch.SearchQueryDeterminesNumbers | agents/venue_searching_agent/venue_searching_agent.py:121-126 | for one venue type, city and state, the search text tells the guest count, the day count and the budget apart: equal texts come from equal numbers |
| VenueSearch.CollectVenues | agents/venue_searching_agent/venue_searching_agent.py:129-139 | the extract service is called exactly when there are URLs, and with all of them; without URLs no venues are collected |
| VenueSearch.PerPage | agents/venue_searching_agent/venue_searching_agent.py:134-136 | a venue is collected exactly when the model extracts it from some page |
| VenueSearch.PerPageAppend | agents/venue_searching_agent/venue_searching_agent.py:134-136 | the per-page lists are concatenated in page order |
| VenueSearch.ContactQuery | agents/venue_searching_agent/venue_searching_agent.py:145-148 | the query is "name, location" when the location is non-empty, else just the name |
| VenueSearch.GetPhoneNumber | agents/venue_searching_agent/venue_searching_agent.py:45-47 | every query yields the same fixed number |
| VenueSearch.ExtractVenueContactInfo | agents/venue_searching_agent/venue_searching_agent.py:141-151 | the list length is unchanged; every venue, taken from the stored venues when none are given, gets the number looked up for its query, and nothing else changes |
| VenueSearch.AllVenuesShareOnePhone | agents/venue_searching_agent/venue_searching_agent.py:141-151 | as written, every venue receives the same contact number |
| VenueSearch.SaveVenues | agents/venue_searching_agent/venue_searching_agent.py:153-162 | keeps exactly the venues whose url is non-empty and starts with "http" |
| VenueSearch.SaveVenuesOrder | agents/venue_searching_agent/venue_searching_agent.py:155 | the filter keeps the original order, distributes over concatenation, and is idempotent |
| VenueSearchUtils.StateCode | agents/venue_searching_agent/utils.py:30-92 | a state name whose lower-cased form is in the table gets its code; anything else is returned unchanged |
| VenueSearchUtils.StateCodeIgnoresCase | agents/venue_searching_agent/utils.py:92 | the lookup ignores the case of full names |
| VenueSearchUtils.EventById | agents/venue_searching_agent/utils.py:87-88 | the first event row with the id, or none exactly when no row has it |
| VenueSearchUtils.RowKeepsVenue | agents/venue_searching_agent/utils.py:99-112 | a venue row carries the event id and the price, and every field of the venue comes back out of it |
| VenueSearchUtils.ProcessVenueSearch | agents/venue_searching_agent/utils.py:84-115 | a missing event row raises IndexError and a null state raises, as do tool arguments the tool's schema rejects; an exception of the search propagates; otherwise there is one row per venue in order, each tagged with the event id, its venue and its own pricing answer, and no insert when there are no venues |
| VenueSearchUtils.GenerateEmailAboutVenues | agents/venue_searching_agent/utils.py:121-147 | sender, recipient and reply-to headers; the subject is the fixed prefix followed by a month and day that parse back to the start date |
| VenueSearchUtils.SenderAddress | agents/venue_searching_agent/utils.py:184 | the extraction raises exactly when the header has no '<'; the extracted address holds neither '<' nor '>' |
| VenueSearchUtils.SenderAddressRoundTrip | agents/venue_searching_agent/utils.py:184 | the text between the first '<' and the next '>' recovers the address placed in the "from" header |
| VenueSearchUtils.ReplyToRoundTrip | agents/venue_searching_agent/utils.py:143 | the reply-to address embeds the event id, which reads back out of it |
| VenueSearchUtils.StoredEmail | agents/venue_searching_agent/utils.py:183-196 | the stored row holds the event id, the send id, the extracted sender and the recipient, subject and bodies; extraction raises when the sender header has no '<' |
| VenueSearchUtils.MessageOf | agents/venue_searching_agent/utils.py:205-211 | raises exactly when from_email is null or the chosen body is null; otherwise outbound exactly when from_email ends with the sending domain, and the content is body_text when that key exists, else body_html, else "" |
| VenueSearchUtils.Conversation | agents/venue_searching_agent/utils.py:202-211 | emails map one-for-one and in order to agent messages; when an email raises, the conversation raises the exception of the first such email |
| VenueSearchUtils.ConversationAppend | agents/venue_searching_agent/utils.py:205-211 | the conversation of two runs of emails is the two conversations in sequence |
| VenueSearchUtils.NullBodyRaises | agents/venue_searching_agent/utils.py:207-211 | an email whose chosen body is null makes the whole reply raise, wherever it sits in the thread |
| VenueSearchUtils.Thread | agents/venue_searching_agent/utils.py:202 | the thread holds exactly the rows of the event, in the order given |
| VenueSearchUtils.CreateEmailResponse | agents/venue_searching_agent/utils.py:199-214 | an exception while reading the thread comes first; then a missing event row or customer row raises IndexError; otherwise the reply agent gets the thread's conversation |
| VenueSearchUtils.SentEmailEndsConversation | agents/venue_searching_agent/utils.py:180-211 | after the email about venues is stored, the event's conversation ends with one assistant turn holding the sent text; other events' conversations are unchanged |
| VenueSearchUtils.MailboxRowIsAssistantTurn | agents/venue_searching_agent/utils.py:206-209 | a row sent from the agent's mailbox is an assistant message with its text |
| NegotiationEndpoints.FirstVenue | api/endpoints/negotiation.py:27-35 | the first venue row whose id equals the filter text of the venue_id argument ("None" when it is missing or null), or none exactly when no row has that id |
| NegotiationEndpoints.MissingVenueIdFiltersOnNone | api/endpoints/negotiation.py:27-30 | a call without a venue_id finds the same venue as one asking for the id "None" |
| NegotiationEndpoints.MatchingVenueIds | api/endpoints/negotiation.py:38-39 | exactly the ids of the venues whose place id equals the filter value |
| NegotiationEndpoints.Attendees | api/endpoints/negotiation.py:51-56 | the attendee count of an event row with the negotiation's event id, or none when there is no such row |
| NegotiationEndpoints.Enrich | api/endpoints/negotiation.py:42-65 | every finished negotiation with a matching venue and an existing event is reported with its fields renamed, and nothing else is reported |
| NegotiationEndpoints.EnrichAppend | api/endpoints/negotiation.py:50-65 | the history keeps the order of the negotiations table |
| NegotiationEndpoints.UnfinishedIsDropped | api/endpoints/negotiation.py:45 | a negotiation with a null final quote never appears, wherever it sits |
| NegotiationEndpoints.GetPastNegotiations | api/endpoints/negotiation.py:17-67 | an unknown venue id gives "Venue not found" and nothing else; otherwise the history of every venue sharing its place id, in the one-result envelope of the first tool call |
| NegotiationEndpoints.AskedVenueIsMatched | api/endpoints/negotiation.py:35-39 | when its place id is set, the venue asked about is among the venues whose history is read |
| NegotiationEndpoints.NullPlaceIdHasNoHistory | api/endpoints/negotiation.py:35-39 | a venue whose place id is null is matched through the filter text "None", so its history is empty unless some venue's place id is that text |
| NegotiationEndpoints.WebSearch | api/endpoints/negotiation.py:70-83 | the search service's answer to the query argument, in the one-result envelope |
| NegotiationEndpoints.Webhook | api/endpoints/negotiation.py:86-95 | raises exactly when `message` holds null; otherwise answers "success", and the payload is logged exactly for end-of-call reports |
| ToolCalls.FirstToolCall | api/endpoints/event_details.py:33-34 | the first tool call, or an empty call when the message or the list is missing; a null message, or a null or empty list, raises |
| ToolCalls.Respond | api/endpoints/event_details.py:49 | a one-element results list carrying the tool call's id and the result |
| EventDetails.UserByPhone | api/endpoints/event_details.py:37-39 | the first user whose phone is the number, or none exactly when no row has it |
| ToolCalls.CustomerNumber | api/endpoints/event_details.py:35 | `message["customer"]["number"]`: KeyError for a missing key, TypeError for a null `message` or `customer`, and None (not an error) for a null number |
| EventDetails.CallAndNumber | api/endpoints/event_details.py:33-35 | succeeds exactly when the tool call and the customer number can be read, a null number included; otherwise the first exception |
| EventDetails.GetUserInformation | api/endpoints/event_details.py:29-49 | the first matching user's fields, or the "does not exist" error exactly when no row has the caller's number (the text "None" for a null number), in the envelope of the first tool call |
| EventDetails.SaveUserInformation | api/endpoints/event_details.py:52-80 | inserts the three arguments and the caller's number, null when it is null; returns the new id, or the error when the insert returns no rows |
| EventDetails.RegisteredUserIsFound | api/endpoints/event_details.py:37-77 | after registering with a number, the caller is found by it: as the new row, or as an earlier row with the same number |
| EventDetails.NullNumberIsNeverFound | api/endpoints/event_details.py:35-98 | a caller whose number is null is stored with a null phone, and then neither the lookup nor the event save finds them ("does not exist", "User not found"), unless a row stores the text "None" |
| EventDetails.UserByPhoneAppend | api/endpoints/event_details.py:37-39 | a row added to the table does not change who is found first, unless nobody was |
| EventDetails.EventData | api/endpoints/event_details.py:103-119 | the row holds the user id and every required argument (null when absent); required_amenities and additional_details appear exactly when not null |
| EventDetails.SaveEventDetails | api/endpoints/event_details.py:83-129 | a caller without a user row for their number (the text "None" for a null number) gets "User not found" and nothing is inserted; otherwise the event row for the first matching user is inserted and the new id, or the error on an empty answer, is returned |
| EventDetails.RegistrationEnablesEventSave | api/endpoints/event_details.py:67-100 | a caller who has just registered with a number can save an event: the insert is sent |
| SyncUser.Or | frontend/lib/supabase/sync-user.ts:14-17 | JavaScript `\|\|`: the left value when it is a non-empty string, else the right |
| SyncUser.DisplayName | frontend/lib/supabase/sync-user.ts:14-17 | full name, else name, else the part of the email before '@', else "User", each skipped when empty; never empty |
| SyncUser.NamedAfterEmail | frontend/lib/supabase/sync-user.ts:16 | a user without profile names is named after the local part of their email |
| SyncUser.SyncUserToDatabase | frontend/lib/supabase/sync-user.ts:3-46 | an upsert is sent exactly when getUser gives a user and no error; success exactly when the upsert then succeeds; failures carry the error |
| SyncUser.Upsert | frontend/lib/supabase/sync-user.ts:22-34 | the upsert on id replaces the rows with the record's id, or appends it; other rows are kept and distinct ids stay distinct |
| SyncUser.UpsertIdempotent | frontend/lib/supabase/sync-user.ts:22-34 | syncing the same user twice leaves the table as syncing once |
| SyncUser.SyncedUserHasOneRow | frontend/lib/supabase/sync-user.ts:19-41 | after a successful sync the table holds the user's record, with their display name, and ids stay distinct |
| Middleware.HandleRequest | frontend/middleware.ts:4-16 | redirects home exactly for a path starting with "/dashboard" and no user; otherwise the session response is returned unchanged |
| Middleware.ProtectedIsPrefixClosed | frontend/middleware.ts:8 | the guard is a plain prefix test, so every extension of a guarded path, such as "/dashboardX", is guarded |
| Middleware.PassThrough | frontend/middleware.ts:8-15 | a signed-in user, or any path outside the dashboard, gets the session response |
| AuthCallback.HandleCallback | frontend/app/auth/callback/route.ts:5-24 | a code is exchanged only when present; on a successful exchange the user is synced and sent to `next`, which defaults to "/dashboard" only when absent; otherwise to "/"; the sync's result is never read, so it is not an input |
| AuthCallback.SignInLandsWhereAllowed | frontend/app/auth/callback/route.ts:8-23 | a successful sign-in without `next` lands on a guarded page the signed-in user is let through to; a failed one lands on an unguarded page |
| Text.ToLower | agents/venue_searching_agent/utils.py:92 | lower-casing keeps the length and lowers each character |
| Text.BeforeFirst | agents/venue_searching_agent/agent.py:112 | `split(c)[0]`: the longest prefix without `c`; it is shorter than the input exactly when `c` occurs |
| Text.SecondPart | agents/venue_searching_agent/utils.py:184 | `split(c)[1]` read up to the next `c`: absent exactly when `c` does not occur |
| Text.IntToString | agents/venue_searching_agent/venue_searching_agent.py:122-126 | decimal text of an integer, with a sign for negatives |
| Text.IntToStringInjective | agents/venue_searching_agent/venue_searching_agent.py:126 | different numbers give different text |
| Dates.OrdinalOrder | agents/venue_searching_agent/venue_searching_agent.py:117-119 | date subtraction agrees with calendar order: one date precedes another exactly when its day number is smaller |
| Dates.NextDayOrdinal | agents/venue_searching_agent/venue_searching_agent.py:119 | the next calendar day is one day number later |
| Dates.ParseMonthDayRoundTrip | agents/venue_searching_agent/utils.py:137 | the "%b %d" text of a date reads back as its month and day |
| Seqs.Filter | agents/venue_searching_agent/venue_searching_agent.py:155 | a list comprehension with a condition keeps exactly the elements that pass, and no more than the input |
| Wrappers.Get | agents/venue_searching_agent/utils.py:207 | `dict.get(key, default)`: the default only when the key is missing, null when it holds null |

## Left out

- Network and storage clients are not modelled as behaviour. Google Maps, the web search and extract service, the voice platform, Resend, Supabase and MongoDB appear only as input data or parameters.
- Clock values are left out: the `timestamp` of a history record (negotiation_agent.py:105) and the datetime endpoint of event_details.py. The wall-clock timeout and `time.sleep` of the polling loop become a budget of polls.
- Language-model work is left out, because its output is not determined by the code: `_extract_best_venues`, the email body, the reply agent of `create_email_response`, and `trim_messages_middleware`. These appear as parameters where their results flow on.
- The `data` dictionaries built for the language model (utils.py:157-177, 217-238) are left out. This includes the "x/5.0" rating text.
- Markdown rendering of the email body is left out. The HTML is a parameter.
- E.164 phone normalisation is done by a library. It is a parameter `normalise` that raises, rejects (None) or answers.
- Geocoding and the places request of `search_nearby_venues` are left out. The model starts from the nearby results, each paired with its details answer.
- `strptime` parsing of the event dates is left out. The model takes the parsed dates.
- Resolving redirect targets against the request URL (route.ts) is left out. Locations are the paths before resolution.
- The middleware `config.matcher` is left out. It decides which requests reach the middleware at all.
- `VenueSearchingAgent.__init__` only loads the event document. The model takes the document's fields.
- Floating-point values are left out. Ratings, coordinates and call durations are carried as opaque values and never computed on.
- Text.ToLower: lowers ASCII letters only, whereas Python's `lower()` also lowers letters of other alphabets.
- The `except` around the history update (negotiation_agent.py:122-123) is left out. The update is a pure function of the venues list, so it cannot fail here.
- `call.id if hasattr(call, 'id') else str(call)` (negotiation_agent.py:91) is modelled as the call's id, because a created call always has one.
- The utils.py:108-110 defaults are not modelled as firing. A missing location and missing types cannot reach `process_venue_search`, because `search_nearby_venues` always sets both keys. A missing location would give null coordinates, and missing types an empty list.
- VenueSearchUtils.ProcessVenueSearch: the `venue_type` enum in agent.py:50 is passed to pydantic as an extra keyword, which pydantic does not enforce. The model checks only that the type is present. The state pattern of agent.py:49 is enforced.
- `email_customer_about_venues` sends to a fixed address (utils.py:180). The model takes the recipient as a parameter.
- `get_phone_number`'s place lookup (venue_searching_agent.py:48-59) is unreachable, because the function returns a fixed number first. Only the fixed number is modelled.
- `get_gmaps_place_id` and `convert_phone_number_to_e164` in venue_searching_agent.py are used only by that unreachable lookup.
- Call history is keyed by venue name, as in the source. "One record per venue per run" is proved only for venues with distinct names. SharedNameGoesToFirst and NamelessVenueHistoryLost show what happens otherwise.
- The negotiation webhook only logs and acknowledges. Nothing correlates its reports with calls, so there is no call lifecycle beyond the batch and the polling loop.
- VenueSearchUtils.Thread: the rows are taken in the order given, which stands for creation order. The `order("created_at")` sort of utils.py:202 is not modelled, and ties in `created_at` are not modelled either.
- VenueSearchUtils.CreateEmailResponse: a null `user_id` on the event is modelled as the same missing-customer failure, although the database may reject the filter with its own error. The reply agent's answer and its markdown rendering are left out.
- The event and customer lookups of `email_customer_about_venues` (utils.py:152-153) are left out. GenerateEmailAboutVenues takes the start date and the recipient as inputs.
- VenueSearch.ExtractVenueContactInfo: the source writes `contact_phone_number` into the caller's dictionaries in place, or into the agent's stored venues when called without a list. The model returns the updated list and does not model that sharing.
- NegotiationAgent.NewAgent: an id is valid exactly when it is 24 hex digits. The tolerance of `bytes.fromhex` for whitespace between digit pairs is not modelled.
- NearbySearch.SearchNearbyVenues: a `geometry` or `location` key holding null makes `.get` raise (agent.py:123-124). The model reads the coordinates as optional values and does not raise there.
- ToolCalls.FirstToolCall: an entry of `toolCalls`, its `function` object, or `function.arguments` holding null makes `.get` raise (for `arguments`, the later `parameters.get` in event_details.py:60 and 91 and negotiation.py:25 and 78). The model takes the entries and their arguments as objects.
- NegotiationEndpoints.FirstVenue: a `venue_id` that is a number, list or object is formatted by the client as Python text, which the model does not compute (a JSON number cannot tell `5` from `5.0`). Such an argument matches no venue in the model.
- utils.py:11-17 imports `negotiate_with_venue` and `web_search` from agent.py, which defines neither. As written, importing utils.py (and api/router.py, which imports it) raises ImportError, so none of its functions can run. The model of `process_venue_search`, `generate_email_about_venues`, the stored email and `create_email_response` assumes that these two imports resolve.
- The `get_current_datetime` endpoint (event_details.py:16-26) only reads the clock and is left out.
- server.py, api/router.py, api/endpoints/venue_search.py, agents/negotiation_agent/utils.py, both create_agent.py scripts, agents/test_vapi_agent.py, hero.tsx and navbar.tsx are health checks, routing, configuration scripts or UI. They are not part of this model.

=== FILE: auth_callback.dfy ===
/** The sign-in callback of the web front end (frontend/app/auth/callback/route.ts):
    the authorisation code from the identity provider is exchanged for a session,
    the user is synced into the users table, and the browser is sent on.

    The code exchange's error (None when it succeeds) is a parameter. The sync's
    outcome is awaited and never read, so it is not an input of the decision. The
    redirect target is given as the path before it is resolved against the
    request URL. */
module AuthCallback {
  import opened Wrappers
  import SyncUser
  import Middleware

  const DefaultNext := "/dashboard"
  const Home := "/"

  /** The code sent to the exchange (None when none is), whether the user is
      synced, and the path the browser is redirected to. */
  datatype CallbackOutcome = CallbackOutcome(exchanged: Option<string>, synced: bool, location: string)

  /** `GET`: `code` and `next` are the query parameters (None when missing). */
  function HandleCallback(code: Option<string>, next: Option<string>, exchangeError: Option<string>): (r: CallbackOutcome)
    ensures r.exchanged.Some? <==> Truthy(code)
    ensures r.exchanged.Some? ==> r.exchanged == code
    ensures r.synced <==> Truthy(code) && exchangeError.None?
    ensures r.synced ==> r.location == next.GetOr(DefaultNext)
    ensures !r.synced ==> r.location == Home
  {
    if Truthy(code) then
      if exchangeError.None? then
        CallbackOutcome(code, true, next.GetOr(DefaultNext))
      else CallbackOutcome(code, false, Home)
    else CallbackOutcome(None, false, Home)
  }

  /** A sign-in without `next` lands on the dashboard, which the middleware lets the
      now signed-in user through to; a failed sign-in lands on the home page,
      which the middleware never guards. */
  lemma SignInLandsWhereAllowed<U, R>(code: Option<string>, exchangeError: Option<string>, user: U, response: R)
    ensures var r := HandleCallback(code, None, exchangeError);
            && (r.synced ==> Middleware.Protected(r.location)
                             && Middleware.HandleRequest(r.location, Some(user), response) == Middleware.Continue(response))
            && (!r.synced ==> !Middleware.Protected(r.location))
  {
    assert DefaultNext[..|Middleware.DashboardPrefix|] == Middleware.DashboardPrefix;
  }
}

=== FILE: dates.dfy ===
/** Calendar dates as Python's `datetime` computes with them: the proleptic
    Gregorian calendar, years 1 to 9999, day ordinals counted from 0001-01-01 = 1
    (`date.toordinal`), so that `(end - start).days` is a difference of ordinals.
    Also the `strftime("%b %d")` rendering of a date in the C locale. */
module Dates {
  import opened Wrappers
  import Text

  datatype Date = Date(year: int, month: int, day: int)

  predicate IsLeap(year: int) {
    year % 4 == 0 && (year % 100 != 0 || year % 400 == 0)
  }

  function DaysInYear(year: int): int {
    if IsLeap(year) then 366 else 365
  }

  function DaysInMonth(year: int, month: int): int
    requires 1 <= month <= 12
  {
    if month == 2 then (if IsLeap(year) then 29 else 28)
    else if month == 4 || month == 6 || month == 9 || month == 11 then 30
    else 31
  }

  /** A date `strptime` can produce. */
  predicate Valid(d: Date) {
    && 1 <= d.year <= 9999
    && 1 <= d.month <= 12
    && 1 <= d.day <= DaysInMonth(d.year, d.month)
  }

  /** Days in the years before `year` (Python's `_days_before_year`). */
  function DaysBeforeYear(year: int): int
    requires year >= 1
  {
    var y := year - 1;
    y * 365 + y / 4 - y / 100 + y / 400
  }

  /** Days in the months of `year` before `month` (Python's `_days_before_month`). */
  function DaysBeforeMonth(year: int, month: int): int
    requires 1 <= month <= 12
  {
    var common :=
      if month == 1 then 0 else if month == 2 then 31 else if month == 3 then 59
      else if month == 4 then 90 else if month == 5 then 120 else if month == 6 then 151
      else if month == 7 then 181 else if month == 8 then 212 else if month == 9 then 243
      else if month == 10 then 273 else if month == 11 then 304 else 334;
    if month > 2 && IsLeap(year) then common + 1 else common
  }

  /** `date.toordinal()`. */
  function Ordinal(d: Date): int
    requires Valid(d)
  {
    DaysBeforeYear(d.year) + DaysBeforeMonth(d.year, d.month) + d.day
  }

  /** Lexicographic order on (year, month, day): calendar order. */
  predicate Before(a: Date, b: Date) {
    || a.year < b.year
    || (a.year == b.year && a.month < b.month)
    || (a.year == b.year && a.month == b.month && a.day < b.day)
  }

  /** Stepping a count by one crosses a multiple of 4, 100 or 400 exactly when the
      new count is one. */
  lemma DivStep(n: nat)
    ensures (n + 1) / 4 == n / 4 + (if (n + 1) % 4 == 0 then 1 else 0)
    ensures (n + 1) / 100 == n / 100 + (if (n + 1) % 100 == 0 then 1 else 0)
    ensures (n + 1) / 400 == n / 400 + (if (n + 1) % 400 == 0 then 1 else 0)
  {
  }

  /** A multiple of 400 is a multiple of 100, and a multiple of 100 one of 4. */
  lemma DivisorChain(y: int)
    ensures y % 100 == 0 ==> y % 4 == 0
    ensures y % 400 == 0 ==> y % 100 == 0
  {
    if y % 100 == 0 {
      var q := y / 100;
      assert y == 4 * (25 * q) + 0;
    }
    if y % 400 == 0 {
      var q := y / 400;
      assert y == 100 * (4 * q) + 0;
    }
  }

  lemma YearLength(year: int)
    requires year >= 1
    ensures DaysBeforeYear(year + 1) == DaysBeforeYear(year) + DaysInYear(year)
  {
    DivStep(year - 1);
    DivisorChain(year);
  }

  lemma MonthLength(year: int, month: int)
    requires 1 <= month < 12
    ensures DaysBeforeMonth(year, month + 1) == DaysBeforeMonth(year, month) + DaysInMonth(year, month)
  {
  }

  /** A valid date's ordinal lies inside its own year. */
  lemma OrdinalWithinYear(d: Date)
    requires Valid(d)
    ensures DaysBeforeYear(d.year) < Ordinal(d) <= DaysBeforeYear(d.year) + DaysInYear(d.year)
  {
  }

  lemma {:induction false} DaysBeforeYearMonotone(y1: int, y2: int)
    requires 1 <= y1 <= y2
    ensures DaysBeforeYear(y1) + DaysInYear(y1) * (if y1 < y2 then 1 else 0) <= DaysBeforeYear(y2)
    decreases y2 - y1
  {
    if y1 < y2 {
      YearLength(y1);
      if y1 + 1 < y2 {
        DaysBeforeYearMonotone(y1 + 1, y2);
      }
    }
  }

  /** Ordinals follow calendar order, so `(end - start).days` has the sign of the
      calendar distance and is zero exactly for the same date. */
  lemma OrdinalOrder(a: Date, b: Date)
    requires Valid(a) && Valid(b)
    ensures Before(a, b) <==> Ordinal(a) < Ordinal(b)
    ensures a == b <==> Ordinal(a) == Ordinal(b)
  {
    OrdinalWithinYear(a);
    OrdinalWithinYear(b);
    if a.year < b.year {
      DaysBeforeYearMonotone(a.year, b.year);
    } else if b.year < a.year {
      DaysBeforeYearMonotone(b.year, a.year);
    }
  }

  /** The following calendar day. */
  function NextDay(d: Date): (r: Date)
    requires Valid(d)
    requires d.year < 9999 || d.month < 12 || d.day < 31
    ensures Valid(r) && Before(d, r)
  {
    if d.day < DaysInMonth(d.year, d.month) then Date(d.year, d.month, d.day + 1)
    else if d.month < 12 then Date(d.year, d.month + 1, 1)
    else Date(d.year + 1, 1, 1)
  }

  /** Consecutive days have consecutive ordinals, across month and year ends. */
  lemma NextDayOrdinal(d: Date)
    requires Valid(d)
    requires d.year < 9999 || d.month < 12 || d.day < 31
    ensures Ordinal(NextDay(d)) == Ordinal(d) + 1
  {
    if d.day == DaysInMonth(d.year, d.month) {
      if d.month < 12 {
        MonthLength(d.year, d.month);
      } else {
        YearLength(d.year);
      }
    }
  }

  // ---------------------------------------------------------------------------
  // strftime("%b %d")

  const MonthAbbreviations: seq<string> :=
    ["Jan", "Feb", "Mar", "Apr", "May", "Jun", "Jul", "Aug", "Sep", "Oct", "Nov", "Dec"]

  /** `%d`: the day of the month as two digits. */
  function TwoDigits(n: int): (r: string)
    requires 0 <= n < 100
    ensures |r| == 2 && Text.IsDigit(r[0]) && Text.IsDigit(r[1])
    ensures 10 * Text.DigitValue(r[0]) + Text.DigitValue(r[1]) == n
  {
    [Text.DigitChar(n / 10), Text.DigitChar(n % 10)]
  }

  /** `strftime("%b %d")`, e.g. "Mar 07". */
  function MonthDay(d: Date): (r: string)
    requires Valid(d)
    ensures |r| == 6 && r[3] == ' '
  {
    MonthAbbreviations[d.month - 1] + " " + TwoDigits(d.day)
  }

  function MonthOfAbbreviation(s: string): (r: Option<int>)
    ensures r.Some? ==> 1 <= r.value <= 12 && MonthAbbreviations[r.value - 1] == s
    ensures r.None? ==> s !in MonthAbbreviations
  {
    if s == "Jan" then Some(1) else if s == "Feb" then Some(2) else if s == "Mar" then Some(3)
    else if s == "Apr" then Some(4) else if s == "May" then Some(5) else if s == "Jun" then Some(6)
    else if s == "Jul" then Some(7) else if s == "Aug" then Some(8) else if s == "Sep" then Some(9)
    else if s == "Oct" then Some(10) else if s == "Nov" then Some(11) else if s == "Dec" then Some(12)
    else None
  }

  /** Reads a "%b %d" rendering back into (month, day). */
  function ParseMonthDay(s: string): Option<(int, int)> {
    if |s| != 6 || s[3] != ' ' || !Text.IsDigit(s[4]) || !Text.IsDigit(s[5]) then None
    else
      match MonthOfAbbreviation(s[..3])
      case None => None
      case Some(m) => Some((m, 10 * Text.DigitValue(s[4]) + Text.DigitValue(s[5])))
  }

  /** The rendering loses only the year: month and day are recovered exactly. */
  lemma ParseMonthDayRoundTrip(d: Date)
    requires Valid(d)
    ensures ParseMonthDay(MonthDay(d)) == Some((d.month, d.day))
  {
    var s := MonthDay(d);
    assert s[..3] == MonthAbbreviations[d.month - 1];
  }
}

=== FILE: event_details.dfy ===
/** The event-details tool endpoints (api/endpoints/event_details.py): looking up
    the caller by phone, registering a new caller, and saving the details of the
    event they describe.

    The users table is passed in as a sequence in database order; each insert's
    answer (the id of the row created, or None when the database returns no rows)
    is a parameter. */
module EventDetails {
  import opened Wrappers
  import ToolCalls

  /** A row of the users table as these endpoints read and write it; the
      descriptive columns may be null. The web front end writes the same table
      through its own projection (`SyncUser.UserRecord`). */
  datatype UserRow = UserRow(id: string, name: Option<string>, email: Option<string>, phone: Option<string>, company: Option<string>)

  /** The `result` object of `get_user_information`. */
  datatype UserInfo =
    | UserFound(userId: string, name: Option<string>, email: Option<string>, phone: Option<string>, company: Option<string>)
    | UserMissing

  const UserMissingText := "User does not exist in the system"

  /** The first user whose phone is the caller's number. */
  function UserByPhone(users: seq<UserRow>, phone: string): (r: Option<UserRow>)
    ensures r.None? <==> forall i :: 0 <= i < |users| ==> users[i].phone != Some(phone)
    ensures r.Some? ==> exists i :: 0 <= i < |users| && users[i] == r.value && r.value.phone == Some(phone)
                          && forall j :: 0 <= j < i ==> users[j].phone != Some(phone)
  {
    if users == [] then None
    else if users[0].phone == Some(phone) then Some(users[0])
    else
      var r := UserByPhone(users[1..], phone);
      assert forall i :: 1 <= i < |users| ==> users[i] == users[1..][i - 1];
      if r.Some? then
        var k :| 0 <= k < |users[1..]| && users[1..][k] == r.value && r.value.phone == Some(phone)
                 && forall j :: 0 <= j < k ==> users[1..][j].phone != Some(phone);
        assert users[k + 1] == r.value;
        r
      else r
  }

  /** The first tool call and the customer number (None when `number` holds null),
      or the exception raised reading them, the tool call first. */
  function CallAndNumber(p: ToolCalls.Payload): (r: Result<(ToolCalls.ToolCall, Option<string>), string>)
    ensures r.Success? <==> ToolCalls.FirstToolCall(p).Success? && ToolCalls.CustomerNumber(p).Success?
    ensures r.Success? ==> r.value == (ToolCalls.FirstToolCall(p).value, ToolCalls.CustomerNumber(p).value)
    ensures ToolCalls.FirstToolCall(p).Failure? ==> r == Failure(ToolCalls.FirstToolCall(p).error)
    ensures ToolCalls.FirstToolCall(p).Success? && r.Failure? ==> r == Failure(ToolCalls.CustomerNumber(p).error)
  {
    match ToolCalls.FirstToolCall(p)
    case Failure(err) => Failure(err)
    case Success(call) =>
      match ToolCalls.CustomerNumber(p)
      case Failure(err) => Failure(err)
      case Success(number) => Success((call, number))
  }

  /** The text an equality filter on `phone` compares with: the client formats a
      null number as "None", so a null number matches only a phone stored as "None". */
  function PhoneFilter(number: Option<string>): string {
    number.GetOr("None")
  }

  /** `get_user_information`. */
  function GetUserInformation(p: ToolCalls.Payload, users: seq<UserRow>): (r: ToolCalls.Reply<UserInfo>)
    ensures r.Success? <==> CallAndNumber(p).Success?
    ensures r.Success? ==> ToolCalls.AnswersFirstCall(p, r)
    ensures r.Success? ==>
              var number := PhoneFilter(CallAndNumber(p).value.1);
              var info := r.value.results[0].result;
              && (info == UserMissing <==> forall i :: 0 <= i < |users| ==> users[i].phone != Some(number))
              && (info.UserFound? ==>
                    info.phone == Some(number) &&
                    UserByPhone(users, number) == Some(UserRow(info.userId, info.name, info.email, info.phone, info.company)))
  {
    match CallAndNumber(p)
    case Failure(err) => Failure(err)
    case Success((call, number)) =>
      match UserByPhone(users, PhoneFilter(number))
      case None => Success(ToolCalls.Respond(call, UserMissing))
      case Some(u) => Success(ToolCalls.Respond(call, UserFound(u.id, u.name, u.email, u.phone, u.company)))
  }

  /** The row `save_user_information` inserts: the three arguments and the caller's
      number, which may be null. */
  datatype NewUser = NewUser(name: ToolCalls.Json, email: ToolCalls.Json, phone: Option<string>, company: ToolCalls.Json)

  datatype SavedUser = SavedUserId(userId: string) | SaveUserFailed

  const SaveUserFailedText := "Failed to save new user information to the database"

  /** `save_user_information`: the insert it sends (None when it raises first) and
      its reply; `inserted` is the database's answer to the insert. */
  function SaveUserInformation(p: ToolCalls.Payload, inserted: Option<string>): (r: (Option<NewUser>, ToolCalls.Reply<SavedUser>))
    ensures r.0.Some? <==> CallAndNumber(p).Success?
    ensures r.1.Success? <==> CallAndNumber(p).Success?
    ensures r.1.Success? ==> ToolCalls.AnswersFirstCall(p, r.1)
    ensures r.0.Some? ==>
              var call := ToolCalls.FirstToolCall(p).value;
              r.0.value == NewUser(ToolCalls.Argument(call, "name"), ToolCalls.Argument(call, "email"),
                                   CallAndNumber(p).value.1, ToolCalls.Argument(call, "company"))
    ensures r.1.Success? ==> r.1.value.results[0].result == (if inserted.Some? then SavedUserId(inserted.value) else SaveUserFailed)
  {
    match CallAndNumber(p)
    case Failure(err) => (None, Failure(err))
    case Success((call, number)) =>
      var row := NewUser(ToolCalls.Argument(call, "name"), ToolCalls.Argument(call, "email"), number, ToolCalls.Argument(call, "company"));
      var body := if inserted.Some? then SavedUserId(inserted.value) else SaveUserFailed;
      (Some(row), Success(ToolCalls.Respond(call, body)))
  }

  /** The users table after an insert of `u` that created row `id`. */
  function Inserted(users: seq<UserRow>, u: NewUser, id: string): seq<UserRow> {
    users + [UserRow(id, StoredText(u.name), StoredText(u.email), u.phone, StoredText(u.company))]
  }

  /** A JSON string column as stored; anything else is left null. */
  function StoredText(j: ToolCalls.Json): Option<string> {
    if j.JString? then Some(j.s) else None
  }

  /** A caller with a number who registers is found afterwards by the same number:
      as the new row when no earlier row had that number, and as the earlier row
      otherwise. */
  lemma RegisteredUserIsFound(p: ToolCalls.Payload, users: seq<UserRow>, id: string)
    requires CallAndNumber(p).Success? && CallAndNumber(p).value.1.Some?
    ensures var u := SaveUserInformation(p, Some(id)).0.value;
            var after := Inserted(users, u, id);
            var info := GetUserInformation(p, after).value.results[0].result;
            && info.UserFound?
            && (UserByPhone(users, u.phone.value).None? ==> info.userId == id)
            && (UserByPhone(users, u.phone.value).Some? ==> info.userId == UserByPhone(users, u.phone.value).value.id)
  {
    var u := SaveUserInformation(p, Some(id)).0.value;
    var after := Inserted(users, u, id);
    assert after[|users|].phone == u.phone;
    assert forall i :: 0 <= i < |users| ==> after[i] == users[i];
    UserByPhoneAppend(users, UserRow(id, StoredText(u.name), StoredText(u.email), u.phone, StoredText(u.company)), u.phone.value);
  }

  /** A caller whose number is null is registered with a null phone, and is then
      found neither by the lookup nor by the event save, which filter on the text
      "None", unless some row stores that text as its phone. */
  lemma NullNumberIsNeverFound(p: ToolCalls.Payload, users: seq<UserRow>, id: string, inserted: Option<string>)
    requires CallAndNumber(p).Success? && CallAndNumber(p).value.1.None?
    requires forall i :: 0 <= i < |users| ==> users[i].phone != Some("None")
    ensures SaveUserInformation(p, Some(id)).0.value.phone.None?
    ensures var after := Inserted(users, SaveUserInformation(p, Some(id)).0.value, id);
            && GetUserInformation(p, after).value.results[0].result == UserMissing
            && SaveEventDetails(p, after, inserted).0.None?
            && SaveEventDetails(p, after, inserted).1.value.results[0].result == UserNotRegistered
  {
    var after := Inserted(users, SaveUserInformation(p, Some(id)).0.value, id);
    assert forall i :: 0 <= i < |after| ==> after[i].phone != Some("None") by {
      assert forall i :: 0 <= i < |users| ==> after[i] == users[i];
    }
  }

  /** Appending a row does not change who is found first, unless nobody was. */
  lemma {:induction false} UserByPhoneAppend(users: seq<UserRow>, row: UserRow, phone: string)
    ensures UserByPhone(users, phone).Some? ==> UserByPhone(users + [row], phone) == UserByPhone(users, phone)
    ensures UserByPhone(users, phone).None? && row.phone == Some(phone) ==> UserByPhone(users + [row], phone) == Some(row)
  {
    if users == [] {
      assert [] + [row] == [row];
      assert [row][1..] == [];
    } else {
      assert (users + [row])[0] == users[0];
      assert (users + [row])[1..] == users[1..] + [row];
      UserByPhoneAppend(users[1..], row, phone);
    }
  }

  // ---------------------------------------------------------------------------
  // Event details

  /** The arguments copied into every event row, whatever their value. */
  const CopiedKeys: set<string> := {"start_date", "end_date", "number_of_attendees", "venue_type",
                                    "location_city", "location_state", "budget_min", "budget_max"}

  /** The arguments copied only when present and not null. */
  const OptionalKeys: set<string> := {"required_amenities", "additional_details"}

  /** `event_data`: the user id and the event arguments. */
  function EventData(call: ToolCalls.ToolCall, userId: string): (d: map<string, ToolCalls.Json>)
    ensures "user_id" in d && d["user_id"] == ToolCalls.JString(userId)
    ensures forall k :: k in d <==> k == "user_id" || k in CopiedKeys || (k in OptionalKeys && ToolCalls.Argument(call, k) != ToolCalls.JNull)
    ensures forall k :: k in d && k != "user_id" ==> d[k] == ToolCalls.Argument(call, k)
  {
    var base := map k | k in CopiedKeys :: ToolCalls.Argument(call, k);
    var withAmenities := if ToolCalls.Argument(call, "required_amenities") != ToolCalls.JNull
                         then base["required_amenities" := ToolCalls.Argument(call, "required_amenities")] else base;
    var withDetails := if ToolCalls.Argument(call, "additional_details") != ToolCalls.JNull
                       then withAmenities["additional_details" := ToolCalls.Argument(call, "additional_details")] else withAmenities;
    withDetails["user_id" := ToolCalls.JString(userId)]
  }

  datatype SavedEvent = SavedEventId(eventId: string) | UserNotRegistered | SaveEventFailed

  const UserNotRegisteredText := "User not found. Please register the user first."
  const SaveEventFailedText := "Failed to save event details"

  /** `save_event_details`: the insert it sends (None when the caller is not a
      registered user or the request is malformed) and its reply; `inserted` is the
      database's answer to the insert. */
  function SaveEventDetails(p: ToolCalls.Payload, users: seq<UserRow>, inserted: Option<string>)
    : (r: (Option<map<string, ToolCalls.Json>>, ToolCalls.Reply<SavedEvent>))
    ensures r.1.Success? <==> CallAndNumber(p).Success?
    ensures r.1.Success? ==> ToolCalls.AnswersFirstCall(p, r.1)
    ensures r.0.Some? <==> CallAndNumber(p).Success? && UserByPhone(users, PhoneFilter(CallAndNumber(p).value.1)).Some?
    ensures r.0.Some? ==>
              r.0.value == EventData(ToolCalls.FirstToolCall(p).value, UserByPhone(users, PhoneFilter(CallAndNumber(p).value.1)).value.id)
    ensures r.1.Success? ==>
              var body := r.1.value.results[0].result;
              && (body == UserNotRegistered <==> r.0.None?)
              && (body.SavedEventId? <==> r.0.Some? && inserted.Some?)
              && (body.SavedEventId? ==> body.eventId == inserted.value)
  {
    match CallAndNumber(p)
    case Failure(err) => (None, Failure(err))
    case Success((call, number)) =>
      match UserByPhone(users, PhoneFilter(number))
      case None => (None, Success(ToolCalls.Respond(call, UserNotRegistered)))
      case Some(user) =>
        var body := if inserted.Some? then SavedEventId(inserted.value) else SaveEventFailed;
        (Some(EventData(call, user.id)), Success(ToolCalls.Respond(call, body)))
  }

  /** A caller with a number who has just registered can save an event: the
      insert is sent, for the user the lookup finds by their number. */
  lemma RegistrationEnablesEventSave(p: ToolCalls.Payload, users: seq<UserRow>, id: string, inserted: Option<string>)
    requires CallAndNumber(p).Success? && CallAndNumber(p).value.1.Some?
    ensures var after := Inserted(users, SaveUserInformation(p, Some(id)).0.value, id);
            && SaveEventDetails(p, after, inserted).0.Some?
            && SaveEventDetails(p, after, inserted).1.value.results[0].result != UserNotRegistered
  {
    var u := SaveUserInformation(p, Some(id)).0.value;
    UserByPhoneAppend(users, UserRow(id, StoredText(u.name), StoredText(u.email), u.phone, StoredText(u.company)), u.phone.value);
  }
}

=== FILE: middleware.dfy ===
/** The request middleware of the web front end (frontend/middleware.ts): the
    session is refreshed for every request, and dashboard pages are closed to
    visitors who are not signed in.

    The session refresh is a parameter: the user it finds and the response it
    prepared. */
module Middleware {
  import opened Wrappers
  import Text

  const DashboardPrefix := "/dashboard"

  /** The paths the middleware guards: every path starting with "/dashboard". */
  predicate Protected(path: string) {
    Text.StartsWith(path, DashboardPrefix)
  }

  /** What the middleware answers: a redirect to the home page, or the response
      the session refresh prepared. */
  datatype Outcome<R> = RedirectHome | Continue(response: R)

  function HandleRequest<U, R>(path: string, user: Option<U>, response: R): (r: Outcome<R>)
    ensures r.RedirectHome? <==> Protected(path) && user.None?
    ensures r.Continue? ==> r.response == response
  {
    if Protected(path) && user.None? then RedirectHome else Continue(response)
  }

  /** Guarding is a prefix test: anything written after "/dashboard" is guarded
      too, including paths such as "/dashboards" that are not below it. */
  lemma ProtectedIsPrefixClosed(path: string, suffix: string)
    requires Protected(path)
    ensures Protected(path + suffix)
  {
    assert (path + suffix)[..|DashboardPrefix|] == path[..|DashboardPrefix|];
  }

  /** A signed-in visitor always gets the refreshed session's response, and a
      visitor outside the dashboard gets it signed in or not. */
  lemma PassThrough<U, R>(path: string, user: Option<U>, response: R)
    requires user.Some? || !Protected(path)
    ensures HandleRequest(path, user, response) == Continue(response)
  {
  }
}

=== FILE: nearby_search.dfy ===
/** The nearby-venue search tool (agents/venue_searching_agent/agent.py).

    Google Maps is replaced by data: each nearby place carries the answer the
    place-details request gives for it. Phone normalisation to E.164 (done by a
    library) is a parameter `normalise`: it raises on text it cannot parse
    (`Failure`), gives None for a number that is not valid, and the E.164 text
    otherwise. */
module NearbySearch {
  import opened Wrappers
  import Text

  // ---------------------------------------------------------------------------
  // Venue type

  /** `venue_type_mapping`: the Google place type searched for each venue type. */
  const VenueTypeMapping: map<string, string> := map[
    "hotel" := "lodging",
    "resort" := "lodging",
    "restaurant" := "restaurant",
    "bar" := "bar",
    "nightclub" := "night_club",
    "event space" := "event_venue"
  ]

  /** `venue_type_mapping.get(venue_type.lower(), venue_type.lower())`. */
  function PlaceType(venueType: string): (r: string)
    ensures Text.ToLower(venueType) in {"hotel", "resort"} ==> r == "lodging"
    ensures Text.ToLower(venueType) == "nightclub" ==> r == "night_club"
    ensures Text.ToLower(venueType) == "event space" ==> r == "event_venue"
    ensures Text.ToLower(venueType) in {"restaurant", "bar"} ==> r == Text.ToLower(venueType)
    ensures Text.ToLower(venueType) !in VenueTypeMapping ==> r == Text.ToLower(venueType)
  {
    var lowered := Text.ToLower(venueType);
    if lowered in VenueTypeMapping then VenueTypeMapping[lowered] else lowered
  }

  /** The mapping ignores case: a venue type and its lower-cased form search the same place type. */
  lemma PlaceTypeIgnoresCase(venueType: string)
    ensures PlaceType(venueType) == PlaceType(Text.ToLower(venueType))
  {
    Text.ToLowerIdempotent(venueType);
  }

  // ---------------------------------------------------------------------------
  // Places

  /** The place-details answer. The keys read with a default are `Field`s (a key
      holding null does not fall back to the default); for the others None stands
      for a key that is missing or null alike. */
  datatype Details = Details(
    name: Field<string>,
    address: Field<string>,         // formatted_address
    phone: Field<string>,           // formatted_phone_number
    website: Option<string>,
    rating: Option<real>,
    ratingsTotal: Field<int>,       // user_ratings_total
    lat: Option<real>,              // geometry.location.lat
    lng: Option<real>,              // geometry.location.lng
    types: Option<seq<string>>)

  /** One nearby-search result, with the details answer for its place id. */
  datatype Place = Place(
    placeId: string,
    businessStatus: Option<string>,
    name: Option<string>,
    vicinity: Option<string>,
    internationalPhone: Option<string>,
    details: Details)

  /** One element of the list the tool returns. */
  datatype NearbyVenue = NearbyVenue(
    placeId: string,
    name: Option<string>,
    address: Option<string>,
    phone: Option<string>,
    website: string,
    rating: Option<real>,
    ratingCount: Option<int>,
    lat: Option<real>,
    lng: Option<real>,
    types: Option<seq<string>>)

  /** The phone before normalisation: the details phone, or the nearby result's
      international phone when the details answer lacks the key. */
  function RawPhone(p: Place): Option<string> {
    p.details.phone.Get(p.internationalPhone)
  }

  /** What `convert_phone_number_to_e164` does with a text: raises, or returns the
      E.164 text or None. */
  type Normaliser = string -> Result<Option<string>, string>

  /** A place the loop reaches whose phone the normaliser cannot parse: the
      conversion runs before the website is checked, and its exception ends the
      search. */
  predicate Raises(p: Place, normalise: Normaliser) {
    p.businessStatus == Some("OPERATIONAL") && Truthy(RawPhone(p)) && normalise(RawPhone(p).value).Failure?
  }

  /** A place that is operational, has a phone the normaliser accepts, and a website. */
  predicate Eligible(p: Place, normalise: Normaliser) {
    && p.businessStatus == Some("OPERATIONAL") && Truthy(RawPhone(p))
    && normalise(RawPhone(p).value).Success? && Truthy(p.details.website)
  }

  /** The record built for an eligible place. */
  function MakeVenue(p: Place, normalise: Normaliser): (v: NearbyVenue)
    requires Eligible(p, normalise)
    ensures v.placeId == p.placeId
    ensures Success(v.phone) == normalise(RawPhone(p).value)
    ensures v.website <= p.details.website.value && '?' !in v.website
    ensures |v.website| < |p.details.website.value| ==> p.details.website.value[|v.website|] == '?'
    ensures p.details.name.Absent? ==> v.name == p.name
    ensures p.details.name.Null? ==> v.name == None
    ensures p.details.name.Present? ==> v.name == Some(p.details.name.value)
    ensures p.details.address.Absent? ==> v.address == p.vicinity
    ensures p.details.address.Null? ==> v.address == None
    ensures p.details.address.Present? ==> v.address == Some(p.details.address.value)
    ensures p.details.ratingsTotal.Absent? ==> v.ratingCount == Some(0)
    ensures p.details.ratingsTotal.Null? ==> v.ratingCount == None
    ensures p.details.ratingsTotal.Present? ==> v.ratingCount == Some(p.details.ratingsTotal.value)
    ensures v.rating == p.details.rating && v.types == p.details.types
    ensures v.lat == p.details.lat && v.lng == p.details.lng
  {
    NearbyVenue(
      p.placeId,
      p.details.name.Get(p.name),
      p.details.address.Get(p.vicinity),
      normalise(RawPhone(p).value).value,
      Text.BeforeFirst(p.details.website.value, '?'),
      p.details.rating,
      p.details.ratingsTotal.Get(Some(0)),
      p.details.lat,
      p.details.lng,
      p.details.types)
  }

  /** `venues[k]` was built from the eligible place `picked[k]`; the places picked
      are in increasing order and all before `bound`. */
  ghost predicate Picks(places: seq<Place>, venues: seq<NearbyVenue>, picked: seq<nat>,
                        normalise: Normaliser, bound: int)
  {
    && |picked| == |venues| && bound <= |places|
    && (forall k :: 0 <= k < |picked| ==> picked[k] < bound)
    && (forall k, l :: 0 <= k < l < |picked| ==> picked[k] < picked[l])
    && (forall k :: 0 <= k < |picked| ==>
          Eligible(places[picked[k]], normalise) && venues[k] == MakeVenue(places[picked[k]], normalise))
  }

  /** Picking the eligible place at the bound keeps the picks well formed. */
  lemma PicksExtend(places: seq<Place>, venues: seq<NearbyVenue>, picked: seq<nat>,
                    normalise: Normaliser, i: nat)
    requires Picks(places, venues, picked, normalise, i) && i < |places| && Eligible(places[i], normalise)
    ensures Picks(places, venues + [MakeVenue(places[i], normalise)], picked + [i], normalise, i + 1)
  {
    var venues', picked' := venues + [MakeVenue(places[i], normalise)], picked + [i];
    forall k | 0 <= k < |picked'|
      ensures picked'[k] < i + 1
      ensures Eligible(places[picked'[k]], normalise) && venues'[k] == MakeVenue(places[picked'[k]], normalise)
    {
      if k < |picked| {
        assert picked'[k] == picked[k] && venues'[k] == venues[k];
      }
    }
  }

  /** The filter/cap/normalise loop of `search_nearby_venues` over the nearby
      results: the venues built, or the exception of the first phone that cannot
      be parsed. `picked` records which places the venues came from (those built
      before the exception, when there is one). */
  method SearchNearbyVenues(places: seq<Place>, maxResults: int, normalise: Normaliser)
    returns (r: Result<seq<NearbyVenue>, string>, ghost picked: seq<nat>)
    ensures (forall i :: 0 <= i < |places| ==> !Raises(places[i], normalise)) ==> r.Success?
    ensures r.Success? && maxResults >= 0 ==> |r.value| <= maxResults
    ensures r.Success? ==> forall v :: v in r.value ==>
              exists i :: 0 <= i < |places| && Eligible(places[i], normalise) && v == MakeVenue(places[i], normalise)
    ensures r.Success? ==> forall i :: 0 <= i < |places| && Raises(places[i], normalise) ==> |r.value| >= maxResults
    ensures r.Success? ==>
              var venues := r.value;
              && (maxResults >= 0 ==> |venues| <= maxResults)
              && (maxResults <= 0 ==> venues == [])
              && |picked| == |venues|
              && (forall k :: 0 <= k < |picked| ==> picked[k] < |places|)
              && (forall k, l :: 0 <= k < l < |picked| ==> picked[k] < picked[l])
              && (forall k :: 0 <= k < |picked| ==>
                    Eligible(places[picked[k]], normalise) && venues[k] == MakeVenue(places[picked[k]], normalise))
              && (forall i :: 0 <= i < |places| && Eligible(places[i], normalise) && i !in picked ==>
                    |venues| >= maxResults && forall k :: 0 <= k < |picked| ==> picked[k] < i)
              && (forall i :: 0 <= i < |places| && Raises(places[i], normalise) ==>
                    |venues| >= maxResults && forall k :: 0 <= k < |picked| ==> picked[k] < i)
    ensures r.Failure? ==>
              exists i :: 0 <= i < |places| && Raises(places[i], normalise)
                && r.error == normalise(RawPhone(places[i]).value).error
                && (forall j :: 0 <= j < i ==> !Raises(places[j], normalise))
                && |picked| < maxResults
                && (forall k :: 0 <= k < |picked| ==> picked[k] < i)
                && (forall j :: 0 <= j < i && Eligible(places[j], normalise) ==> j in picked)
  {
    var venues: seq<NearbyVenue> := [];
    picked := [];
    var i := 0;
    var full := false;
    while i < |places| && !full
      invariant 0 <= i <= |places|
      invariant maxResults >= 0 ==> |venues| <= maxResults
      invariant maxResults <= 0 ==> venues == []
      invariant full ==> |venues| >= maxResults
      invariant Picks(places, venues, picked, normalise, i)
      invariant forall j :: 0 <= j < i && Eligible(places[j], normalise) ==> j in picked
      invariant forall j :: 0 <= j < i ==> !Raises(places[j], normalise)
      decreases |places| - i, if full then 0 else 1
    {
      var place := places[i];
      if place.businessStatus != Some("OPERATIONAL") {
        i := i + 1;
      } else if |venues| >= maxResults {
        full := true;
      } else {
        var raw := RawPhone(place);
        if Truthy(raw) {
          var phone := normalise(raw.value);
          if phone.Failure? {
            return Failure(phone.error), picked;
          }
          if Truthy(place.details.website) {
            PicksExtend(places, venues, picked, normalise, i);
            venues := venues + [MakeVenue(place, normalise)];
            picked := picked + [i];
          }
        }
        i := i + 1;
      }
    }
    r := Success(venues);
    assert forall v :: v in venues ==> exists k :: 0 <= k < |picked| && v == venues[k];
  }

  // ---------------------------------------------------------------------------
  // Pricing

  const PricingPrefix := "Total quote per person per night at "

  /** The question `get_venue_pricing` sends to the web search service: the fixed
      phrase, the venue name, then " in city, state". */
  function PricingQuery(name: string, city: string, state: string): (q: string)
    ensures Text.StartsWith(q, PricingPrefix + name)
    ensures q[|PricingPrefix + name|..] == " in " + city + ", " + state
  {
    var head := PricingPrefix + name;
    var q := head + " in " + city + ", " + state;
    assert q == head + (" in " + city + ", " + state);
    assert q[..|head|] == head;
    q
  }

  /** Two venues in the same place whose names differ are asked about with
      different questions. */
  lemma PricingQueryNamesVenue(a: string, b: string, city: string, state: string)
    requires a != b
    ensures PricingQuery(a, city, state) != PricingQuery(b, city, state)
  {
    var qa, qb := PricingQuery(a, city, state), PricingQuery(b, city, state);
    var tail := " in " + city + ", " + state;
    assert qa == PricingPrefix + a + tail && qb == PricingPrefix + b + tail;
    if |a| == |b| {
      var k :| 0 <= k < |a| && a[k] != b[k];
      assert qa[|PricingPrefix| + k] == a[k];
      assert qb[|PricingPrefix| + k] == b[k];
    } else {
      assert |qa| != |qb|;
    }
  }
}

=== FILE: negotiation_agent.dfy ===
/** The outbound call batch of the negotiation agent
    (agents/negotiation_agent/negotiation_agent.py).

    The agent loads one event document, walks its `venues` list, asks the voice
    platform to place a call to every venue that has a phone number, and pushes a
    record onto that venue's `call_history`. A separate routine polls the platform
    until a call reaches a final status, fails, or runs out of time.

    The voice platform is replaced by data: the outcome of each `calls.create`
    request is an input (one per venue), and the answers to `calls.get` are a finite
    sequence of observations. The wall-clock timeout becomes a poll budget. */
module NegotiationAgent {
  import opened Wrappers

  // ---------------------------------------------------------------------------
  // Data

  /** One element of a venue's `call_history` (the timestamp is not modelled). */
  datatype CallRecord = CallRecord(callId: Option<string>, status: string, error: Option<string>)

  /** A venue entry of the event document: `name` (missing, null or set),
      `contact_phone_number`, and the `call_history` list (empty when the key is
      missing). */
  datatype Venue = Venue(name: Field<string>, phone: Option<string>, callHistory: seq<CallRecord>)

  /** The event document as `find_one` returns it; its `venues` key may be
      missing, null or set. */
  datatype EventDoc = EventDoc(venues: Field<seq<Venue>>)

  /** A constructed agent: the event id, the venues list read at construction
      (None when the document holds null there), and the configured assistant id. */
  datatype Agent = Agent(eventId: string, venues: Option<seq<Venue>>, assistantId: string)

  /** What `calls.create` does for one venue: returns a call with an id, or raises. */
  datatype CreateOutcome = Created(callId: string) | CreateRaised(message: string)

  /** What the batch reports for one venue (the line it prints). */
  datatype Disposition =
    | Skipped                   // no phone number
    | Initiated(callId: string) // call created, non-empty id
    | NoCallId                  // `_call_venue` returned a falsy id
    | Errored(message: string)  // `calls.create` raised

  const UnknownName := "Unknown"
  const UnknownVenueName := "Unknown Venue"

  // ---------------------------------------------------------------------------
  // Construction

  predicate IsHexDigit(c: char) {
    '0' <= c <= '9' || 'a' <= c <= 'f' || 'A' <= c <= 'F'
  }

  /** The text `ObjectId(text)` accepts: 24 hexadecimal digits. */
  predicate IsObjectId(s: string) {
    |s| == 24 && forall i :: 0 <= i < |s| ==> IsHexDigit(s[i])
  }

  /** The message of the `InvalidId` error `ObjectId` raises. */
  function InvalidIdMessage(eventId: string): string {
    "'" + eventId + "' is not a valid ObjectId, it must be a 12-byte input or a 24-character hex string"
  }

  /** `NegotiationAgent.__init__`: the id is parsed first, then `found` (the
      `find_one` result) and `assistantId` (the NEGOTIATION_ASSISTANT_ID setting)
      are checked. */
  function NewAgent(eventId: string, found: Option<EventDoc>, assistantId: Option<string>): (r: Result<Agent, string>)
    ensures r.Success? <==> IsObjectId(eventId) && found.Some? && Truthy(assistantId)
    ensures !IsObjectId(eventId) ==> r == Failure(InvalidIdMessage(eventId))
    ensures IsObjectId(eventId) && found.None? ==> r == Failure("Event with ID " + eventId + " not found")
    ensures IsObjectId(eventId) && found.Some? && !Truthy(assistantId) ==>
              r == Failure("NEGOTIATION_ASSISTANT_ID environment variable not set")
    ensures r.Success? ==> r.value.eventId == eventId && r.value.assistantId == assistantId.value
    ensures r.Success? && found.value.venues.Absent? ==> r.value.venues == Some([])
    ensures r.Success? && found.value.venues.Null? ==> r.value.venues == None
    ensures r.Success? && found.value.venues.Present? ==> r.value.venues == Some(found.value.venues.value)
  {
    if !IsObjectId(eventId) then Failure(InvalidIdMessage(eventId))
    else if found.None? then Failure("Event with ID " + eventId + " not found")
    else if !Truthy(assistantId) then Failure("NEGOTIATION_ASSISTANT_ID environment variable not set")
    else Success(Agent(eventId, found.value.venues.Get(Some([])), assistantId.value))
  }

  // ---------------------------------------------------------------------------
  // Call history

  /** The record `_update_venue_call_history` builds: the "error" key is set only
      for a non-empty error text. */
  function NewRecord(callId: Option<string>, status: string, error: Option<string>): (r: CallRecord)
    ensures r.callId == callId && r.status == status
    ensures r.error.Some? <==> Truthy(error)
    ensures r.error.Some? ==> r.error == error
  {
    CallRecord(callId, status, if Truthy(error) then error else None)
  }

  /** The venue name a history push filters on: `venue.get("name", default)`,
      which is None when the key holds null. */
  function NameKey(venue: Venue, default: string): Option<string> {
    venue.name.Get(Some(default))
  }

  /** Whether a venue satisfies the filter `"venues.name": key`; a null key
      matches a venue whose name is null or missing. */
  predicate Matches(v: Venue, key: Option<string>) {
    if key.Some? then v.name == Present(key.value) else !v.name.Present?
  }

  /** `i` is the first venue matching the key: the element the positional update
      `venues.$` of the history push selects. */
  predicate FirstWithName(venues: seq<Venue>, i: int, key: Option<string>) {
    && 0 <= i < |venues|
    && Matches(venues[i], key)
    && forall k :: 0 <= k < i ==> !Matches(venues[k], key)
  }

  function FirstNamed(venues: seq<Venue>, key: Option<string>): (r: Option<nat>)
    ensures r.Some? ==> FirstWithName(venues, r.value, key)
    ensures r.None? ==> forall k :: 0 <= k < |venues| ==> !Matches(venues[k], key)
  {
    if venues == [] then None
    else if Matches(venues[0], key) then Some(0)
    else match FirstNamed(venues[1..], key)
      case None => None
      case Some(k) => Some(k + 1)
  }

  /** The venues keep their names and phones, and every history only grows. */
  predicate AppendOnly(before: seq<Venue>, after: seq<Venue>) {
    && |after| == |before|
    && forall i :: 0 <= i < |before| ==>
         after[i].name == before[i].name && after[i].phone == before[i].phone &&
         before[i].callHistory <= after[i].callHistory
  }

  /** `_update_venue_call_history`: push `rec` onto the history of the first venue
      matching the name key; when no venue matches the update changes nothing. */
  function UpdateCallHistory(venues: seq<Venue>, key: Option<string>, rec: CallRecord): (r: seq<Venue>)
    ensures AppendOnly(venues, r)
    ensures forall i :: 0 <= i < |venues| ==>
              r[i].callHistory == venues[i].callHistory + (if FirstWithName(venues, i, key) then [rec] else [])
  {
    match FirstNamed(venues, key)
    case None => venues
    case Some(j) => venues[j := venues[j].(callHistory := venues[j].callHistory + [rec])]
  }

  /** Two venues sharing a name share one history slot: a push for the later one
      lands on the earlier one and leaves the later one untouched. */
  lemma SharedNameGoesToFirst(venues: seq<Venue>, i: int, j: int, rec: CallRecord)
    requires 0 <= i < j < |venues|
    requires venues[i].name.Present? && venues[j].name == venues[i].name
    ensures UpdateCallHistory(venues, Some(venues[j].name.value), rec)[j] == venues[j]
  {
    assert !FirstWithName(venues, j, Some(venues[j].name.value));
  }

  /** A venue without a `name` key is looked up under a placeholder name ("Unknown
      Venue" for a created call, "Unknown" for a failed one), so its own history is
      never written unless some venue carries that placeholder as its name. */
  lemma NamelessVenueHistoryLost(venues: seq<Venue>, venue: Venue, outcome: CreateOutcome)
    requires venue.name.Absent?
    requires forall k :: 0 <= k < |venues| ==> venues[k].name != Present(UnknownName) && venues[k].name != Present(UnknownVenueName)
    ensures NegotiateOne(venues, venue, outcome).0 == venues
  {
    var after := NegotiateOne(venues, venue, outcome).0;
    assert forall k :: 0 <= k < |venues| ==> after[k].callHistory == venues[k].callHistory;
    assert forall k :: 0 <= k < |venues| ==> after[k] == venues[k];
  }

  // ---------------------------------------------------------------------------
  // One venue

  /** `_call_venue`: the updated venues, and the returned call id or the exception
      re-raised from `calls.create`. */
  function CallVenue(venues: seq<Venue>, venue: Venue, outcome: CreateOutcome): (r: (seq<Venue>, Result<Option<string>, string>))
    ensures AppendOnly(venues, r.0)
    ensures !Truthy(venue.phone) ==> r == (venues, Success(None))
    ensures Truthy(venue.phone) && outcome.CreateRaised? ==> r == (venues, Failure(outcome.message))
    ensures Truthy(venue.phone) && outcome.Created? ==>
              r.1 == Success(Some(outcome.callId)) &&
              r.0 == UpdateCallHistory(venues, NameKey(venue, UnknownVenueName),
                                       NewRecord(Some(outcome.callId), "initiated", None))
  {
    if !Truthy(venue.phone) then (venues, Success(None))
    else match outcome
      case CreateRaised(m) => (venues, Failure(m))
      case Created(id) =>
        (UpdateCallHistory(venues, NameKey(venue, UnknownVenueName), NewRecord(Some(id), "initiated", None)),
         Success(Some(id)))
  }

  /** What a venue's history gains in one run, when history writes reach the venue
      itself: nothing without a phone, else one "initiated" or one "failed" record. */
  function Expected(venue: Venue, outcome: CreateOutcome): seq<CallRecord> {
    if !Truthy(venue.phone) then []
    else match outcome
      case Created(id) => [CallRecord(Some(id), "initiated", None)]
      case CreateRaised(m) => [NewRecord(None, "failed", Some(m))]
  }

  /** The disposition the batch reports for a venue. */
  function ExpectedDisposition(venue: Venue, outcome: CreateOutcome): Disposition {
    if !Truthy(venue.phone) then Skipped
    else match outcome
      case Created(id) => if id != "" then Initiated(id) else NoCallId
      case CreateRaised(m) => Errored(m)
  }

  /** The body of the loop in `negotiate_with_venues` for one venue. */
  function NegotiateOne(venues: seq<Venue>, venue: Venue, outcome: CreateOutcome): (r: (seq<Venue>, Disposition))
    ensures AppendOnly(venues, r.0)
    ensures r.1 == ExpectedDisposition(venue, outcome)
    ensures !Truthy(venue.phone) ==> r.0 == venues
  {
    if !Truthy(venue.phone) then (venues, Skipped)
    else
      var (after, called) := CallVenue(venues, venue, outcome);
      match called
      case Failure(m) =>
        (UpdateCallHistory(venues, NameKey(venue, UnknownName), NewRecord(None, "failed", Some(m))), Errored(m))
      case Success(id) =>
        if Truthy(id) then (after, Initiated(id.value)) else (after, NoCallId)
  }

  /** When venue `i` is the only one carrying its name, one step adds exactly the
      expected records to venue `i` and nothing to any other venue. */
  lemma NegotiateOneReachesVenue(venues: seq<Venue>, i: int, venue: Venue, outcome: CreateOutcome)
    requires 0 <= i < |venues| && venue.name.Present? && venues[i].name == venue.name
    requires forall k :: 0 <= k < |venues| && k != i ==> venues[k].name != venue.name
    ensures forall k :: 0 <= k < |venues| ==>
              NegotiateOne(venues, venue, outcome).0[k].callHistory ==
              venues[k].callHistory + (if k == i then Expected(venue, outcome) else [])
  {
    var n := Some(venue.name.value);
    assert FirstWithName(venues, i, n);
    forall k | 0 <= k < |venues| && k != i
      ensures !FirstWithName(venues, k, n)
    {
    }
  }

  // ---------------------------------------------------------------------------
  // The batch

  /** Every venue has a name and no two venues share one, so each history push
      reaches the venue it is about. */
  predicate DistinctNames(venues: seq<Venue>) {
    && (forall i :: 0 <= i < |venues| ==> venues[i].name.Present?)
    && (forall i, j :: 0 <= i < |venues| && 0 <= j < |venues| && i != j ==> venues[i].name != venues[j].name)
  }

  /** What `len` raises on a venues list that is null. */
  const NullVenuesError := "TypeError: object of type 'NoneType' has no len()"

  /** `negotiate_with_venues`: `outcomes[i]` is what `calls.create` does for venue
      `i` (unused when the venue has no phone). Returns the venues as stored after
      the run and one disposition per venue; a null venues list raises before any
      call. */
  method NegotiateWithVenues(agent: Agent, outcomes: seq<CreateOutcome>)
    returns (r: Result<(seq<Venue>, seq<Disposition>), string>)
    requires |outcomes| == |agent.venues.GetOr([])|
    ensures r.Failure? <==> agent.venues.None?
    ensures r.Failure? ==> r.error == NullVenuesError
    ensures r.Success? ==>
              var orig := agent.venues.value;
              var (venues, report) := r.value;
              && |report| == |orig|
              && (forall i :: 0 <= i < |report| ==> report[i] == ExpectedDisposition(orig[i], outcomes[i]))
              && AppendOnly(orig, venues)
              && (DistinctNames(orig) ==>
                    forall i :: 0 <= i < |venues| ==>
                      venues[i].callHistory == orig[i].callHistory + Expected(orig[i], outcomes[i]))
  {
    if agent.venues.None? {
      return Failure(NullVenuesError);
    }
    var orig := agent.venues.value;
    var venues := orig;
    var report := [];
    var i := 0;
    while i < |orig|
      invariant 0 <= i <= |orig|
      invariant |report| == i
      invariant forall k :: 0 <= k < i ==> report[k] == ExpectedDisposition(orig[k], outcomes[k])
      invariant AppendOnly(orig, venues)
      invariant Progress(orig, venues, outcomes, i)
    {
      var step := NegotiateOne(venues, orig[i], outcomes[i]);
      ProgressStep(orig, venues, outcomes, i);
      venues, report := step.0, report + [step.1];
      i := i + 1;
    }
    return Success((venues, report));
  }

  /** With distinct names, the venues after the first `i` steps of the batch: the
      first `i` venues have gained their expected records and the rest nothing. */
  predicate Progress(orig: seq<Venue>, venues: seq<Venue>, outcomes: seq<CreateOutcome>, i: int)
    requires |outcomes| == |orig|
  {
    DistinctNames(orig) ==>
      forall k :: 0 <= k < |venues| && k < |orig| ==>
        venues[k].callHistory == orig[k].callHistory + (if k < i then Expected(orig[k], outcomes[k]) else [])
  }

  /** One step of the batch advances its progress by one venue. */
  lemma ProgressStep(orig: seq<Venue>, venues: seq<Venue>, outcomes: seq<CreateOutcome>, i: int)
    requires |outcomes| == |orig| && 0 <= i < |orig|
    requires AppendOnly(orig, venues) && Progress(orig, venues, outcomes, i)
    ensures Progress(orig, NegotiateOne(venues, orig[i], outcomes[i]).0, outcomes, i + 1)
  {
    if DistinctNames(orig) {
      NegotiateOneReachesVenue(venues, i, orig[i], outcomes[i]);
    }
  }

  /** `negotiate_venues_for_event`: build the agent, then run the batch over the
      event's venues. */
  method NegotiateVenuesForEvent(eventId: string, found: Option<EventDoc>, assistantId: Option<string>,
                                 outcomes: seq<CreateOutcome>)
    returns (r: Result<(seq<Venue>, seq<Disposition>), string>)
    requires found.Some? ==> |outcomes| == |found.value.venues.Get(Some([])).GetOr([])|
    ensures r.Failure? <==> NewAgent(eventId, found, assistantId).Failure? || found.value.venues.Null?
    ensures NewAgent(eventId, found, assistantId).Failure? ==> r.error == NewAgent(eventId, found, assistantId).error
    ensures NewAgent(eventId, found, assistantId).Success? && found.value.venues.Null? ==> r.error == NullVenuesError
    ensures r.Success? ==>
              var venues := found.value.venues.Get(Some([])).value;
              && AppendOnly(venues, r.value.0)
              && |r.value.1| == |venues|
              && forall i :: 0 <= i < |venues| ==> r.value.1[i] == ExpectedDisposition(venues[i], outcomes[i])
  {
    var agent := NewAgent(eventId, found, assistantId);
    if agent.Failure? {
      return Failure(agent.error);
    }
    r := NegotiateWithVenues(agent.value, outcomes);
  }

  // ---------------------------------------------------------------------------
  // Polling for completion

  /** The statuses that end `_wait_for_call_completion`. */
  const FinalStatuses: set<string> := {"ended", "completed", "failed", "no-answer", "busy"}

  /** One `calls.get` answer: the call's `status` and `duration` attributes (None
      when missing), or an exception. */
  datatype Observation = Polled(status: Option<string>, duration: Option<real>) | PollRaised(message: string)

  /** The dictionary `_wait_for_call_completion` returns. */
  datatype PollReport =
    | Finished(callId: string, status: string, duration: Option<real>)
    | PollError(callId: string, error: string)
    | TimedOut(callId: string)
  {
    function Status(): string {
      match this
      case Finished(_, s, _) => s
      case PollError(_, _) => "error"
      case TimedOut(_) => "timeout"
    }
  }

  /** An observation that ends the polling loop. */
  predicate Stops(o: Observation) {
    o.PollRaised? || (o.status.Some? && o.status.value in FinalStatuses)
  }

  /** The report an observation that ends the loop produces. */
  function ReportOf(callId: string, o: Observation): PollReport
    requires Stops(o)
  {
    match o
    case PollRaised(m) => PollError(callId, m)
    case Polled(s, d) => Finished(callId, s.value, d)
  }

  /** The index of the first observation, among the first `budget`, that ends the loop. */
  function FirstStop(observations: seq<Observation>, budget: nat): (r: Option<nat>)
    ensures r.Some? ==> r.value < |observations| && r.value < budget && Stops(observations[r.value])
    ensures r.Some? ==> forall j :: 0 <= j < r.value ==> !Stops(observations[j])
    ensures r.None? ==> forall j :: 0 <= j < |observations| && j < budget ==> !Stops(observations[j])
  {
    if budget == 0 || observations == [] then None
    else if Stops(observations[0]) then Some(0)
    else match FirstStop(observations[1..], budget - 1)
      case None => None
      case Some(k) => Some(k + 1)
  }

  /** `_wait_for_call_completion` as a fold over the platform's answers: at most
      `budget` polls fit in the timeout, and running out of answers or of budget
      both mean the deadline passed. */
  function WaitForCallCompletion(callId: string, observations: seq<Observation>, budget: nat): (r: PollReport)
    ensures r.callId == callId
    ensures r.Status() in FinalStatuses || r.Status() == "error" || r.Status() == "timeout"
    ensures FirstStop(observations, budget).None? ==> r == TimedOut(callId)
    ensures FirstStop(observations, budget).Some? ==>
              r == ReportOf(callId, observations[FirstStop(observations, budget).value])
    decreases budget
  {
    if budget == 0 || observations == [] then TimedOut(callId)
    else match observations[0]
      case PollRaised(m) => PollError(callId, m)
      case Polled(s, d) =>
        if s.Some? && s.value in FinalStatuses then Finished(callId, s.value, d)
        else WaitForCallCompletion(callId, observations[1..], budget - 1)
  }

  /** Once an answer has ended the loop, a longer timeout changes nothing: the
      report is decided by the first final status or exception. */
  lemma {:induction false} MoreBudgetSameReport(callId: string, observations: seq<Observation>, budget: nat, more: nat)
    requires budget <= more
    requires FirstStop(observations, budget).Some?
    ensures WaitForCallCompletion(callId, observations, more) == WaitForCallCompletion(callId, observations, budget)
  {
    var k := FirstStop(observations, budget).value;
    assert FirstStop(observations, more) == Some(k) by {
      FirstStopUnique(observations, more, k);
    }
  }

  /** The first stopping index within a budget is the same for any budget that reaches it. */
  lemma {:induction false} FirstStopUnique(observations: seq<Observation>, budget: nat, k: nat)
    requires k < |observations| && k < budget && Stops(observations[k])
    requires forall j :: 0 <= j < k ==> !Stops(observations[j])
    ensures FirstStop(observations, budget) == Some(k)
  {
    if k > 0 {
      assert !Stops(observations[0]);
      FirstStopUnique(observations[1..], budget - 1, k - 1);
    }
  }

  /** Answers after the first final status or exception are never consulted. */
  lemma LaterObservationsIgnored(callId: string, observations: seq<Observation>, later: seq<Observation>, budget: nat)
    requires FirstStop(observations, budget).Some?
    ensures WaitForCallCompletion(callId, observations + later, budget) == WaitForCallCompletion(callId, observations, budget)
  {
    var k := FirstStop(observations, budget).value;
    var all := observations + later;
    assert all[k] == observations[k];
    FirstStopUnique(all, budget, k);
  }
}

=== FILE: negotiation_endpoints.dfy ===
/** The negotiation tool endpoints (api/endpoints/negotiation.py): the history of
    finished negotiations with a venue, the web search tool, and the end-of-call
    webhook.

    The three database tables are passed in as sequences in the order the database
    returns them; the web search service is a parameter. */
module NegotiationEndpoints {
  import opened Wrappers
  import ToolCalls

  /** A row of the venues table, projected onto its primary key and Google place
      id (the venue search inserts the full rows). */
  datatype VenueRow = VenueRow(id: string, googlePlaceId: Option<string>)

  /** A row of the negotiations table. The quote and counteroffer columns are
      carried as JSON and never inspected, except that a missing final quote is
      JSON null. */
  datatype NegotiationRow = NegotiationRow(
    venueId: string,
    createdAt: string,
    eventId: string,
    venueInitialQuote: ToolCalls.Json,
    venueInitialQuoteBreakdown: ToolCalls.Json,
    customerBudgetMax: ToolCalls.Json,
    agentCounteroffer: ToolCalls.Json,
    agentCounterofferBreakdown: ToolCalls.Json,
    agentCounterofferReasoning: ToolCalls.Json,
    venueFinalQuote: ToolCalls.Json,
    venueFinalQuoteBreakdown: ToolCalls.Json)

  /** A row of the events table, projected onto the columns this endpoint reads
      (the venue search helpers read another projection of the same table). */
  datatype EventRow = EventRow(id: string, numberOfAttendees: ToolCalls.Json)

  /** One entry of `past_negotiations`, with the keys renamed as the endpoint does. */
  datatype PastNegotiation = PastNegotiation(
    datetime: string,
    numberOfAttendees: ToolCalls.Json,
    venueInitialQuote: ToolCalls.Json,
    venueInitialQuoteBreakdown: ToolCalls.Json,
    customerBudget: ToolCalls.Json,
    counteroffer: ToolCalls.Json,
    counterofferBreakdown: ToolCalls.Json,
    counterofferReasoning: ToolCalls.Json,
    venueFinalQuote: ToolCalls.Json,
    venueFinalQuoteBreakdown: ToolCalls.Json)

  /** The `result` object: the venue-not-found error or the list. */
  datatype PastBody = VenueNotFound | PastNegotiations(entries: seq<PastNegotiation>)

  // ---------------------------------------------------------------------------
  // Lookups

  /** The text an equality filter on the venue id compares with: the client formats
      the argument as Python text, so a missing or null `venue_id` is "None" and a
      boolean is "True" or "False". None for the values whose text is not modelled
      (numbers, lists and objects); they match no row. */
  function VenueIdFilter(venueId: ToolCalls.Json): Option<string> {
    match venueId
    case JNull => Some("None")
    case JBool(b) => Some(if b then "True" else "False")
    case JString(s) => Some(s)
    case _ => None
  }

  /** The rows an equality filter on the venue id returns; the first is used. */
  function FirstVenue(venues: seq<VenueRow>, venueId: ToolCalls.Json): (r: Option<VenueRow>)
    ensures r.Some? ==> VenueIdFilter(venueId) == Some(r.value.id)
                        && exists i :: 0 <= i < |venues| && venues[i] == r.value
                             && forall j :: 0 <= j < i ==> VenueIdFilter(venueId) != Some(venues[j].id)
    ensures r.None? <==> forall i :: 0 <= i < |venues| ==> VenueIdFilter(venueId) != Some(venues[i].id)
  {
    if venues == [] then None
    else if VenueIdFilter(venueId) == Some(venues[0].id) then Some(venues[0])
    else
      var r := FirstVenue(venues[1..], venueId);
      assert forall i :: 1 <= i < |venues| ==> venues[i] == venues[1..][i - 1];
      if r.Some? then
        var k :| 0 <= k < |venues[1..]| && venues[1..][k] == r.value
                 && forall j :: 0 <= j < k ==> VenueIdFilter(venueId) != Some(venues[1..][j].id);
        assert venues[k + 1] == r.value;
        r
      else r
  }

  /** A call without a `venue_id` asks about the venue whose id is the text "None". */
  lemma {:induction false} MissingVenueIdFiltersOnNone(venues: seq<VenueRow>)
    ensures FirstVenue(venues, ToolCalls.JNull) == FirstVenue(venues, ToolCalls.JString("None"))
  {
    if venues != [] {
      MissingVenueIdFiltersOnNone(venues[1..]);
    }
  }

  /** The value an equality filter compares with: the text of the place id, and
      "None" when the place id is null (the client formats the filter value as
      Python text). */
  function PlaceIdFilter(googlePlaceId: Option<string>): string {
    googlePlaceId.GetOr("None")
  }

  /** The ids of the venues whose place id equals the filter value. */
  function MatchingVenueIds(venues: seq<VenueRow>, placeId: string): (ids: seq<string>)
    ensures forall id :: id in ids <==> exists i :: 0 <= i < |venues| && venues[i].id == id && venues[i].googlePlaceId == Some(placeId)
  {
    if venues == [] then []
    else
      var rest := MatchingVenueIds(venues[1..], placeId);
      assert forall i :: 1 <= i < |venues| ==> venues[i] == venues[1..][i - 1];
      if venues[0].googlePlaceId == Some(placeId) then [venues[0].id] + rest else rest
  }

  /** `number_of_attendees` of the first event with the given id, if any. */
  function Attendees(events: seq<EventRow>, eventId: string): (r: Option<ToolCalls.Json>)
    ensures r.None? <==> forall i :: 0 <= i < |events| ==> events[i].id != eventId
    ensures r.Some? ==> exists i :: 0 <= i < |events| && events[i].id == eventId && events[i].numberOfAttendees == r.value
  {
    if events == [] then None
    else if events[0].id == eventId then Some(events[0].numberOfAttendees)
    else
      var r := Attendees(events[1..], eventId);
      assert forall i :: 1 <= i < |events| ==> events[i] == events[1..][i - 1];
      r
  }

  // ---------------------------------------------------------------------------
  // Enrichment

  /** A negotiation the history reports: one with one of the venues and a final quote. */
  predicate Finished(n: NegotiationRow, venueIds: seq<string>) {
    n.venueId in venueIds && n.venueFinalQuote != ToolCalls.JNull
  }

  function Entry(n: NegotiationRow, attendees: ToolCalls.Json): PastNegotiation {
    PastNegotiation(n.createdAt, attendees, n.venueInitialQuote, n.venueInitialQuoteBreakdown,
                    n.customerBudgetMax, n.agentCounteroffer, n.agentCounterofferBreakdown,
                    n.agentCounterofferReasoning, n.venueFinalQuote, n.venueFinalQuoteBreakdown)
  }

  /** Whether a negotiation is kept: it is finished and its event exists. */
  predicate Reported(n: NegotiationRow, venueIds: seq<string>, events: seq<EventRow>) {
    Finished(n, venueIds) && Attendees(events, n.eventId).Some?
  }

  /** The entry reported for a negotiation whose event exists. */
  function Report(n: NegotiationRow, events: seq<EventRow>): PastNegotiation
    requires Attendees(events, n.eventId).Some?
  {
    Entry(n, Attendees(events, n.eventId).value)
  }

  /** The loop of step 4 over the finished negotiations, in table order. */
  function Enrich(negotiations: seq<NegotiationRow>, venueIds: seq<string>, events: seq<EventRow>): (r: seq<PastNegotiation>)
    ensures |r| <= |negotiations|
    ensures forall n :: n in negotiations && Reported(n, venueIds, events) ==> Report(n, events) in r
    ensures forall e :: e in r ==> exists n :: n in negotiations && Reported(n, venueIds, events) && e == Report(n, events)
  {
    if negotiations == [] then []
    else
      var n := negotiations[0];
      var tail := negotiations[1..];
      var rest := Enrich(tail, venueIds, events);
      assert forall m :: m in negotiations <==> m == n || m in tail;
      if Reported(n, venueIds, events) then [Report(n, events)] + rest else rest
  }

  /** The history keeps the table's order: enriching two runs of rows one after
      the other gives the two histories one after the other. */
  lemma {:induction false} EnrichAppend(a: seq<NegotiationRow>, b: seq<NegotiationRow>, venueIds: seq<string>, events: seq<EventRow>)
    ensures Enrich(a + b, venueIds, events) == Enrich(a, venueIds, events) + Enrich(b, venueIds, events)
  {
    if a == [] {
      assert a + b == b;
    } else {
      assert (a + b)[0] == a[0];
      assert (a + b)[1..] == a[1..] + b;
      EnrichAppend(a[1..], b, venueIds, events);
    }
  }

  /** A negotiation without a final quote never shows in the history, wherever it sits. */
  lemma UnfinishedIsDropped(a: seq<NegotiationRow>, n: NegotiationRow, b: seq<NegotiationRow>, venueIds: seq<string>, events: seq<EventRow>)
    requires n.venueFinalQuote == ToolCalls.JNull
    ensures Enrich(a + [n] + b, venueIds, events) == Enrich(a + b, venueIds, events)
  {
    assert Enrich([n], venueIds, events) == [] by {
      assert [n][1..] == [];
      assert !Reported(n, venueIds, events);
    }
    EnrichAppend(a, [n], venueIds, events);
    assert Enrich(a + [n], venueIds, events) == Enrich(a, venueIds, events);
    EnrichAppend(a + [n], b, venueIds, events);
    EnrichAppend(a, b, venueIds, events);
  }

  // ---------------------------------------------------------------------------
  // Endpoints

  /** `get_past_negotiations`: the place id of the venue named by `venue_id`, every
      venue sharing it, and their finished negotiations with the event's attendee
      count. */
  function GetPastNegotiations(p: ToolCalls.Payload, venues: seq<VenueRow>, negotiations: seq<NegotiationRow>,
                               events: seq<EventRow>): (r: ToolCalls.Reply<PastBody>)
    ensures r.Failure? <==> ToolCalls.FirstToolCall(p).Failure?
    ensures r.Success? ==> ToolCalls.AnswersFirstCall(p, r)
    ensures r.Success? ==>
              var venueId := ToolCalls.Argument(ToolCalls.FirstToolCall(p).value, "venue_id");
              var body := r.value.results[0].result;
              && (body == VenueNotFound <==> FirstVenue(venues, venueId).None?)
              && (body.PastNegotiations? ==>
                    var ids := MatchingVenueIds(venues, PlaceIdFilter(FirstVenue(venues, venueId).value.googlePlaceId));
                    body.entries == Enrich(negotiations, ids, events))
  {
    match ToolCalls.FirstToolCall(p)
    case Failure(err) => Failure(err)
    case Success(call) =>
      match FirstVenue(venues, ToolCalls.Argument(call, "venue_id"))
      case None => Success(ToolCalls.Respond(call, VenueNotFound))
      case Some(venue) =>
        var ids := MatchingVenueIds(venues, PlaceIdFilter(venue.googlePlaceId));
        Success(ToolCalls.Respond(call, PastNegotiations(Enrich(negotiations, ids, events))))
  }

  /** A venue whose place id is null matches, through the filter text "None", only
      venues whose place id is that text; when there are none its history is empty. */
  lemma NullPlaceIdHasNoHistory(venues: seq<VenueRow>, venueId: ToolCalls.Json, negotiations: seq<NegotiationRow>,
                                events: seq<EventRow>)
    requires FirstVenue(venues, venueId).Some? && FirstVenue(venues, venueId).value.googlePlaceId.None?
    requires forall i :: 0 <= i < |venues| ==> venues[i].googlePlaceId != Some("None")
    ensures Enrich(negotiations, MatchingVenueIds(venues, PlaceIdFilter(FirstVenue(venues, venueId).value.googlePlaceId)), events) == []
  {
    var ids := MatchingVenueIds(venues, "None");
    assert forall id :: id !in ids;
    var r := Enrich(negotiations, ids, events);
    assert forall e :: e !in r;
  }

  /** The venue asked about is among the venues whose history is read, as long as
      its place id is set. */
  lemma AskedVenueIsMatched(venues: seq<VenueRow>, venueId: ToolCalls.Json)
    requires FirstVenue(venues, venueId).Some? && FirstVenue(venues, venueId).value.googlePlaceId.Some?
    ensures FirstVenue(venues, venueId).value.id in
              MatchingVenueIds(venues, PlaceIdFilter(FirstVenue(venues, venueId).value.googlePlaceId))
  {
    var v := FirstVenue(venues, venueId).value;
    var i :| 0 <= i < |venues| && venues[i] == v;
  }

  /** `web_search`: the service's answer to the `query` argument (None when it
      gives no answer). */
  function WebSearch(p: ToolCalls.Payload, search: ToolCalls.Json -> Option<string>): (r: ToolCalls.Reply<Option<string>>)
    ensures r.Failure? <==> ToolCalls.FirstToolCall(p).Failure?
    ensures r.Success? ==> ToolCalls.AnswersFirstCall(p, r)
    ensures r.Success? ==> r.value.results[0].result == search(ToolCalls.Argument(ToolCalls.FirstToolCall(p).value, "query"))
  {
    match ToolCalls.FirstToolCall(p)
    case Failure(err) => Failure(err)
    case Success(call) => Success(ToolCalls.Respond(call, search(ToolCalls.Argument(call, "query"))))
  }

  const EndOfCallReport := "end-of-call-report"

  /** The webhook's answer and whether it logs the payload. */
  datatype WebhookOutcome = WebhookOutcome(status: string, logged: bool)

  /** `webhook`: acknowledges every payload except one whose `message` is null,
      on which `.get` raises; only end-of-call reports are logged. */
  function Webhook(p: ToolCalls.Payload): (r: Result<WebhookOutcome, string>)
    ensures r.Failure? <==> p.message.Null?
    ensures r.Failure? ==> r.error == ToolCalls.NullMessageError
    ensures r.Success? ==> r.value.status == "success"
    ensures r.Success? ==> (r.value.logged <==> p.message.Present? && p.message.value.kind == Some(EndOfCallReport))
  {
    match p.message
    case Null => Failure(ToolCalls.NullMessageError)
    case Absent => Success(WebhookOutcome("success", false))
    case Present(m) => Success(WebhookOutcome("success", m.kind == Some(EndOfCallReport)))
  }
}

=== FILE: seqs.dfy ===
/** The filtering list comprehension `[x for x in s if keep(x)]`, with the facts
    the rest of the model needs about it. */
module Seqs {

  /** `[x for x in s if keep(x)]`. */
  function Filter<T>(s: seq<T>, keep: T -> bool): (r: seq<T>)
    ensures |r| <= |s|
    ensures forall x :: x in r ==> x in s && keep(x)
    ensures forall x :: x in s && keep(x) ==> x in r
  {
    if s == [] then []
    else (if keep(s[0]) then [s[0]] else []) + Filter(s[1..], keep)
  }

  /** Filtering keeps the relative order: filtering a concatenation filters the
      parts and concatenates the results. */
  lemma {:induction false} FilterAppend<T>(a: seq<T>, b: seq<T>, keep: T -> bool)
    ensures Filter(a + b, keep) == Filter(a, keep) + Filter(b, keep)
  {
    if a == [] {
      assert a + b == b;
    } else {
      var head := if keep(a[0]) then [a[0]] else [];
      assert Filter(a + b, keep) == head + Filter(a[1..] + b, keep) by {
        assert (a + b)[0] == a[0];
        assert (a + b)[1..] == a[1..] + b;
      }
      FilterAppend(a[1..], b, keep);
      assert head + (Filter(a[1..], keep) + Filter(b, keep)) == (head + Filter(a[1..], keep)) + Filter(b, keep);
    }
  }

  /** Filtering twice with the same test changes nothing the second time. */
  lemma {:induction false} FilterIdempotent<T>(s: seq<T>, keep: T -> bool)
    ensures Filter(Filter(s, keep), keep) == Filter(s, keep)
  {
    if s != [] {
      var head := if keep(s[0]) then [s[0]] else [];
      FilterAppend(head, Filter(s[1..], keep), keep);
      FilterIdempotent(s[1..], keep);
    }
  }
}

=== FILE: sync_user.dfy ===
/** Copying the signed-in user into the application's users table
    (frontend/lib/supabase/sync-user.ts).

    The authentication service's `getUser` answer and the database's answer to the
    upsert are parameters; an exception from either is a `Failure`. */
module SyncUser {
  import opened Wrappers
  import Text

  /** The profile fields the identity provider fills in. */
  datatype Metadata = Metadata(fullName: Option<string>, name: Option<string>)

  /** The authenticated user; `metadata` None stands for missing `user_metadata`. */
  datatype AuthUser = AuthUser(id: string, email: Option<string>, metadata: Option<Metadata>)

  /** What `auth.getUser()` resolves to. */
  datatype UserAnswer = UserAnswer(user: Option<AuthUser>, error: Option<string>)

  /** The row upserted into the users table: its id, name and email columns (the
      voice endpoints read the same table as `EventDetails.UserRow`). */
  datatype UserRecord = UserRecord(id: string, name: string, email: string)

  /** The object `syncUserToDatabase` resolves to, with the upsert it sent. */
  datatype SyncOutcome = SyncOutcome(upserted: Option<UserRecord>, success: bool, error: Option<string>)

  /** JavaScript `a || b` on an optional string: `a` when it is a non-empty string. */
  function Or(a: Option<string>, b: string): (r: string)
    ensures Truthy(a) ==> r == a.value
    ensures !Truthy(a) ==> r == b
  {
    if Truthy(a) then a.value else b
  }

  function FullName(u: AuthUser): Option<string> {
    if u.metadata.Some? then u.metadata.value.fullName else None
  }

  function MetadataName(u: AuthUser): Option<string> {
    if u.metadata.Some? then u.metadata.value.name else None
  }

  /** `email?.split('@')[0]`: the part before the first '@', absent without an email. */
  function EmailLocalPart(u: AuthUser): Option<string> {
    if u.email.Some? then Some(Text.BeforeFirst(u.email.value, '@')) else None
  }

  /** The name stored for a user: the full name, else the name, else the part of
      the email before '@', else "User", each skipped when empty. */
  function DisplayName(u: AuthUser): (name: string)
    ensures name != ""
    ensures Truthy(FullName(u)) ==> name == FullName(u).value
    ensures !Truthy(FullName(u)) && Truthy(MetadataName(u)) ==> name == MetadataName(u).value
    ensures !Truthy(FullName(u)) && !Truthy(MetadataName(u)) && Truthy(EmailLocalPart(u)) ==> name == EmailLocalPart(u).value
    ensures !Truthy(FullName(u)) && !Truthy(MetadataName(u)) && !Truthy(EmailLocalPart(u)) ==> name == "User"
  {
    Or(FullName(u), Or(MetadataName(u), Or(EmailLocalPart(u), "User")))
  }

  /** A user without profile names is named after their email address. */
  lemma NamedAfterEmail(id: string, local: string, domain: string)
    requires local != "" && '@' !in local
    ensures DisplayName(AuthUser(id, Some(local + "@" + domain), None)) == local
  {
    assert local + "@" + domain == local + ['@'] + domain;
    Text.BeforeFirstOfJoin(local, '@', domain);
  }

  /** The record built for a user. */
  function RecordOf(u: AuthUser): UserRecord {
    UserRecord(u.id, DisplayName(u), u.email.GetOr(""))
  }

  /** `syncUserToDatabase`. `answer` is `getUser`'s answer and `upsert` the
      upsert's error (None when it succeeded). */
  function SyncUserToDatabase(answer: Result<UserAnswer, string>, upsert: Result<Option<string>, string>): (r: SyncOutcome)
    ensures r.upserted.Some? <==> answer.Success? && answer.value.error.None? && answer.value.user.Some?
    ensures r.upserted.Some? ==> r.upserted.value == RecordOf(answer.value.user.value) && r.upserted.value.name != ""
    ensures r.success <==> r.upserted.Some? && upsert == Success(None)
    ensures r.success ==> r.error.None?
    ensures answer.Failure? ==> r.error == Some(answer.error)
    ensures answer.Success? && r.upserted.None? ==> r.error == answer.value.error
    ensures r.upserted.Some? && upsert.Failure? ==> r.error == Some(upsert.error)
    ensures r.upserted.Some? && upsert.Success? && upsert.value.Some? ==> r.error == upsert.value
  {
    match answer
    case Failure(thrown) => SyncOutcome(None, false, Some(thrown))
    case Success(a) =>
      if a.error.Some? || a.user.None? then
        // a missing user without an error resolves to an outcome whose error is null
        SyncOutcome(None, false, a.error)
      else
        var row := RecordOf(a.user.value);
        match upsert
        case Failure(thrown) => SyncOutcome(Some(row), false, Some(thrown))
        case Success(Some(err)) => SyncOutcome(Some(row), false, Some(err))
        case Success(None) => SyncOutcome(Some(row), true, None)
  }

  // ---------------------------------------------------------------------------
  // The users table

  predicate DistinctIds(table: seq<UserRecord>) {
    forall i, j :: 0 <= i < j < |table| ==> table[i].id != table[j].id
  }

  /** An upsert on conflict of `id`: the row with the record's id is replaced, or
      the record is appended when there is none. */
  function Upsert(table: seq<UserRecord>, rec: UserRecord): (r: seq<UserRecord>)
    ensures rec in r
    ensures forall x :: x in r && x.id != rec.id <==> x in table && x.id != rec.id
    ensures forall x :: x in r && x.id == rec.id ==> x == rec
    ensures DistinctIds(table) ==> DistinctIds(r)
  {
    if exists i :: 0 <= i < |table| && table[i].id == rec.id then
      var r := seq(|table|, i requires 0 <= i < |table| => if table[i].id == rec.id then rec else table[i]);
      assert forall i :: 0 <= i < |table| ==> r[i].id == table[i].id;
      r
    else
      table + [rec]
  }

  /** Syncing the same user twice leaves the table as syncing once. */
  lemma UpsertIdempotent(table: seq<UserRecord>, rec: UserRecord)
    ensures Upsert(Upsert(table, rec), rec) == Upsert(table, rec)
  {
    var once := Upsert(table, rec);
    var i :| 0 <= i < |once| && once[i] == rec;
    var twice := Upsert(once, rec);
    assert |twice| == |once|;
    assert forall k :: 0 <= k < |once| ==> twice[k] == once[k];
  }

  /** After a successful sync the table holds exactly one row for the user: the
      record with their display name. */
  lemma SyncedUserHasOneRow(table: seq<UserRecord>, answer: Result<UserAnswer, string>)
    requires DistinctIds(table)
    requires SyncUserToDatabase(answer, Success(None)).success
    ensures var rec := SyncUserToDatabase(answer, Success(None)).upserted.value;
            var after := Upsert(table, rec);
            && DistinctIds(after)
            && (exists i :: 0 <= i < |after| && after[i] == rec)
            && forall i :: 0 <= i < |after| && after[i].id == answer.value.user.value.id ==> after[i].name == DisplayName(answer.value.user.value)
  {
    var rec := SyncUserToDatabase(answer, Success(None)).upserted.value;
    var after := Upsert(table, rec);
    assert rec in after;
  }
}

=== FILE: text.dfy ===
/** String operations the system relies on, with the behaviour of the Python and
    TypeScript built-ins they stand for: `lower()`, `startswith`, `endswith`,
    `split(c)[0]`, `split(c)[1]` and `str(int)`.

    Characters are Dafny `char`s; lower-casing covers ASCII letters only.
 */
module Text {
  import opened Wrappers

  // ---------------------------------------------------------------------------
  // Case

  function LowerChar(c: char): char {
    if 'A' <= c <= 'Z' then (c as int + 32) as char else c
  }

  /** `s.lower()` restricted to ASCII letters. */
  function ToLower(s: string): (r: string)
    ensures |r| == |s|
    ensures forall i :: 0 <= i < |s| ==> r[i] == LowerChar(s[i])
  {
    if s == [] then [] else [LowerChar(s[0])] + ToLower(s[1..])
  }

  lemma ToLowerIdempotent(s: string)
    ensures ToLower(ToLower(s)) == ToLower(s)
  {
  }

  // ---------------------------------------------------------------------------
  // Prefixes and suffixes

  /** `s.startswith(p)` / `s.startsWith(p)`. */
  predicate StartsWith(s: string, p: string) {
    |p| <= |s| && s[..|p|] == p
  }

  /** `s.endswith(p)`; every string ends with "". */
  predicate EndsWith(s: string, p: string) {
    |p| <= |s| && s[|s| - |p|..] == p
  }

  lemma EndsWithAppended(a: string, p: string)
    ensures EndsWith(a + p, p)
  {
    assert (a + p)[|a + p| - |p|..] == p;
  }

  // ---------------------------------------------------------------------------
  // Splitting on one character

  /** `s.split(c)[0]`: the text before the first `c`, or all of `s` when there is none. */
  function BeforeFirst(s: string, c: char): (r: string)
    ensures r <= s
    ensures c !in r
    ensures |r| < |s| ==> s[|r|] == c
    ensures |r| == |s| <==> c !in s
  {
    if s == [] then []
    else if s[0] == c then []
    else [s[0]] + BeforeFirst(s[1..], c)
  }

  /** The three facts above pin the result down: any prefix of `s` free of `c` that
      stops at a `c` or at the end of `s` is `BeforeFirst(s, c)`. */
  lemma {:induction false} BeforeFirstUnique(s: string, c: char, p: string)
    requires p <= s && c !in p
    requires |p| < |s| ==> s[|p|] == c
    ensures p == BeforeFirst(s, c)
  {
    if s != [] && s[0] != c {
      assert |p| > 0;
      assert p[0] == s[0];
      BeforeFirstUnique(s[1..], c, p[1..]);
      assert p == [s[0]] + p[1..];
    }
  }

  /** Splitting `a + [c] + b` on `c` gives back `a` when `a` holds no `c`. */
  lemma BeforeFirstOfJoin(a: string, c: char, b: string)
    requires c !in a
    ensures BeforeFirst(a + [c] + b, c) == a
  {
    var s := a + [c] + b;
    assert a <= s;
    assert s[|a|] == c;
    BeforeFirstUnique(s, c, a);
  }

  /** `s.split(c)[1]`: the text between the first and the second `c` (or the end of
      `s`); None where Python raises IndexError because `s` holds no `c`. */
  function SecondPart(s: string, c: char): (r: Option<string>)
    ensures r.None? <==> c !in s
    ensures r.Some? ==> c !in r.value
  {
    var head := BeforeFirst(s, c);
    if |head| == |s| then None
    else Some(BeforeFirst(s[|head| + 1..], c))
  }

  lemma SecondPartOfJoin(a: string, c: char, b: string, tail: string)
    requires c !in a && c !in b
    ensures SecondPart(a + [c] + b + tail, c) == Some(BeforeFirst(b + tail, c))
  {
    var s := a + [c] + b + tail;
    assert s == a + [c] + (b + tail);
    BeforeFirstOfJoin(a, c, b + tail);
    assert s[|a| + 1..] == b + tail;
  }

  // ---------------------------------------------------------------------------
  // Decimal integers

  function DigitChar(d: nat): char
    requires d < 10
  {
    ('0' as int + d) as char
  }

  predicate IsDigit(c: char) {
    '0' <= c <= '9'
  }

  function DigitValue(c: char): nat
    requires IsDigit(c)
  {
    c as int - '0' as int
  }

  /** `str(n)` for a non-negative integer. */
  function NatToString(n: nat): (r: string)
    ensures |r| >= 1
    ensures forall i :: 0 <= i < |r| ==> IsDigit(r[i])
    ensures n > 0 ==> r[0] != '0'
    decreases n
  {
    if n < 10 then [DigitChar(n)]
    else NatToString(n / 10) + [DigitChar(n % 10)]
  }

  /** Reads a string of decimal digits back into its value. */
  function ParseDigits(s: string): nat
    requires forall i :: 0 <= i < |s| ==> IsDigit(s[i])
  {
    if s == [] then 0
    else 10 * ParseDigits(s[..|s| - 1]) + DigitValue(s[|s| - 1])
  }

  lemma {:induction false} ParseNatToString(n: nat)
    ensures ParseDigits(NatToString(n)) == n
    decreases n
  {
    if n >= 10 {
      var r := NatToString(n);
      assert r[..|r| - 1] == NatToString(n / 10);
      ParseNatToString(n / 10);
    }
  }

  /** `str(i)` for any integer: a minus sign before the digits of a negative number. */
  function IntToString(i: int): (r: string)
    ensures |r| >= 1
    ensures i >= 0 ==> r == NatToString(i)
    ensures i < 0 ==> r == "-" + NatToString(-i)
  {
    if i < 0 then "-" + NatToString(-i) else NatToString(i)
  }

  /** The text of an integer starts with a minus sign exactly when it is negative. */
  lemma SignShown(i: int)
    ensures IntToString(i)[0] == '-' <==> i < 0
  {
    if i >= 0 {
      assert IsDigit(NatToString(i)[0]);
    }
  }

  /** Decimal text holds neither a space nor a dollar sign. */
  lemma NumberHasNoSeparator(i: int)
    ensures ' ' !in IntToString(i) && '$' !in IntToString(i)
  {
    var n := NatToString(if i < 0 then -i else i);
    assert forall k :: 0 <= k < |n| ==> IsDigit(n[k]);
    assert IntToString(i) == n || IntToString(i) == "-" + n;
  }

  /** Two texts cut at the first `sep` of each: when neither head holds `sep` and
      both tails start with it, equal texts have equal heads and tails. */
  lemma SplitAtFirst(a: string, b: string, c: string, d: string, sep: char)
    requires sep !in a && sep !in c && |b| > 0 && b[0] == sep && |d| > 0 && d[0] == sep
    requires a + b == c + d
    ensures a == c && b == d
  {
    var s := a + b;
    assert forall k :: 0 <= k < |a| ==> s[k] == a[k] != sep;
    assert forall k :: 0 <= k < |c| ==> s[k] == (c + d)[k] == c[k] != sep;
    assert s[|a|] == sep && s[|c|] == (c + d)[|c|] == sep;
    assert |a| == |c|;
    assert a == s[..|a|] && c == (c + d)[..|c|];
    assert b == s[|a|..] && d == (c + d)[|c|..];
  }

  /** Two texts cut after the last `sep` of each: when both heads end with `sep`
      and neither tail holds it, equal texts have equal heads and tails. */
  lemma SplitAtLast(a: string, b: string, c: string, d: string, sep: char)
    requires |a| > 0 && a[|a| - 1] == sep && |c| > 0 && c[|c| - 1] == sep && sep !in b && sep !in d
    requires a + b == c + d
    ensures a == c && b == d
  {
    var s := a + b;
    assert forall k :: |a| <= k < |s| ==> s[k] == b[k - |a|] != sep;
    assert forall k :: |c| <= k < |s| ==> s[k] == (c + d)[k] == d[k - |c|] != sep;
    assert s[|a| - 1] == sep && s[|c| - 1] == (c + d)[|c| - 1] == sep;
    assert |a| == |c|;
    assert a == s[..|a|] && c == (c + d)[..|c|];
    assert b == s[|a|..] && d == (c + d)[|c|..];
  }

  /** `str` is injective on integers, so a number printed into a message can be read back. */
  lemma IntToStringInjective(i: int, j: int)
    requires IntToString(i) == IntToString(j)
    ensures i == j
  {
    SignShown(i);
    SignShown(j);
    if i >= 0 {
      NatToStringInjective(i, j);
    } else {
      var a, b := NatToString(-i), NatToString(-j);
      assert a == b by {
        assert IntToString(i) == "-" + a && IntToString(j) == "-" + b;
        assert ("-" + a)[1..] == a && ("-" + b)[1..] == b;
      }
      NatToStringInjective(-i, -j);
    }
  }

  /** Different natural numbers have different decimal texts. */
  lemma NatToStringInjective(m: nat, n: nat)
    requires NatToString(m) == NatToString(n)
    ensures m == n
  {
    ParseNatToString(m);
    ParseNatToString(n);
  }
}

=== FILE: tool_calls.dfy ===
/** The request and response shapes shared by the HTTP endpoints the voice
    platform calls as "tools": a JSON payload whose `message.toolCalls[0]` names
    the call and carries its arguments, and a reply of the form
    `{"results": [{"toolCallId": <id>, "result": <body>}]}`. */
module ToolCalls {
  import opened Wrappers

  /** A JSON value. Numbers are carried as reals and never computed on. */
  datatype Json =
    | JNull
    | JBool(b: bool)
    | JNumber(n: real)
    | JString(s: string)
    | JArray(items: seq<Json>)
    | JObject(fields: map<string, Json>)

  /** One entry of `message.toolCalls`; `arguments` is `function.arguments`, empty
      when `function` or `arguments` is missing. */
  datatype ToolCall = ToolCall(id: Option<string>, arguments: map<string, Json>)

  /** The `message.customer` object; its `number` key may be missing, null or set. */
  datatype Customer = Customer(number: Field<string>)

  /** The `message` object: its `type`, its `toolCalls` list and its `customer`. */
  datatype Message = Message(kind: Option<string>, toolCalls: Field<seq<ToolCall>>, customer: Field<Customer>)

  /** The request body; its `message` key may be missing, null or set. */
  datatype Payload = Payload(message: Field<Message>)

  datatype ToolResult<+B> = ToolResult(toolCallId: Option<string>, result: B)

  datatype Envelope<+B> = Envelope(results: seq<ToolResult<B>>)

  /** What a handler produces: a reply, or an exception FastAPI turns into a
      server error. */
  type Reply<B> = Result<Envelope<B>, string>

  const NoToolCall := ToolCall(None, map[])

  /** What `.get` on a `message` that holds null raises. */
  const NullMessageError := "AttributeError: 'NoneType' object has no attribute 'get'"

  /** What subscripting a null value raises. */
  const NotSubscriptableError := "TypeError: 'NoneType' object is not subscriptable"

  /** `payload.get("message", {}).get("toolCalls", [{}])[0]`. */
  function FirstToolCall(p: Payload): (r: Result<ToolCall, string>)
    ensures p.message.Absent? ==> r == Success(NoToolCall)
    ensures p.message.Null? ==> r == Failure(NullMessageError)
    ensures p.message.Present? && p.message.value.toolCalls.Absent? ==> r == Success(NoToolCall)
    ensures p.message.Present? && p.message.value.toolCalls.Present? && |p.message.value.toolCalls.value| > 0
            ==> r == Success(p.message.value.toolCalls.value[0])
    ensures r.Failure? <==> p.message.Null? || (p.message.Present? && (p.message.value.toolCalls.Null? ||
                              (p.message.value.toolCalls.Present? && p.message.value.toolCalls.value == [])))
  {
    match p.message
    case Absent => Success(NoToolCall)
    case Null => Failure(NullMessageError)
    case Present(m) =>
      match m.toolCalls
      case Absent => Success(NoToolCall)
      case Null => Failure(NotSubscriptableError)
      case Present(calls) =>
        if calls == [] then Failure("IndexError: list index out of range") else Success(calls[0])
  }

  /** `parameters.get(key)`: JSON null when the key is missing. */
  function Argument(call: ToolCall, key: string): Json {
    if key in call.arguments then call.arguments[key] else JNull
  }

  /** `payload["message"]["customer"]["number"]`: a missing key raises KeyError and a
      null `message` or `customer` raises TypeError, but a `number` holding null is
      read as None. */
  function CustomerNumber(p: Payload): (r: Result<Option<string>, string>)
    ensures r.Success? <==> p.message.Present? && p.message.value.customer.Present?
                            && !p.message.value.customer.value.number.Absent?
    ensures r.Success? ==> r.value == p.message.value.customer.value.number.Get(None)
    ensures p.message.Absent? ==> r == Failure("KeyError: 'message'")
    ensures p.message.Present? && p.message.value.customer.Absent? ==> r == Failure("KeyError: 'customer'")
    ensures p.message.Null? || (p.message.Present? && p.message.value.customer.Null?) ==> r == Failure(NotSubscriptableError)
  {
    match p.message
    case Absent => Failure("KeyError: 'message'")
    case Null => Failure(NotSubscriptableError)
    case Present(m) =>
      match m.customer
      case Absent => Failure("KeyError: 'customer'")
      case Null => Failure(NotSubscriptableError)
      case Present(c) =>
        match c.number
        case Absent => Failure("KeyError: 'number'")
        case Null => Success(None)
        case Present(n) => Success(Some(n))
  }

  /** The reply envelope: exactly one result, tagged with the tool call's id. */
  function Respond<B>(call: ToolCall, body: B): (e: Envelope<B>)
    ensures |e.results| == 1
    ensures e.results[0].toolCallId == call.id && e.results[0].result == body
  {
    Envelope([ToolResult(call.id, body)])
  }

  /** A reply in the shared envelope for the payload's first tool call. */
  predicate AnswersFirstCall<B>(p: Payload, reply: Reply<B>) {
    && FirstToolCall(p).Success?
    && reply.Success?
    && |reply.value.results| == 1
    && reply.value.results[0].toolCallId == FirstToolCall(p).value.id
  }
}

=== FILE: venue_search.dfy ===
/** The venue searching agent (agents/venue_searching_agent/venue_searching_agent.py):
    state-code lookup, the search query built from an event, collection of the
    venues a language model extracts from each search hit, contact lookup, and the
    filter applied before venues are saved.

    The state-code file, the web search and extract service and the language model
    are parameters. */
module VenueSearch {
  import opened Wrappers
  import Text
  import Seqs
  import Dates

  // ---------------------------------------------------------------------------
  // State codes

  /** `{v: k for k, v in pairs}`: maps each name to its code; when two codes share
      a name the later pair wins, as in a Python dict comprehension. */
  function InvertCodes(pairs: seq<(string, string)>): (m: map<string, string>)
    ensures forall i :: 0 <= i < |pairs| ==> pairs[i].1 in m
    ensures forall name :: name in m ==> (m[name], name) in pairs
  {
    if pairs == [] then map[]
    else
      var last := pairs[|pairs| - 1];
      var m := InvertCodes(pairs[..|pairs| - 1]);
      assert forall i :: 0 <= i < |pairs| - 1 ==> pairs[..|pairs| - 1][i] == pairs[i];
      m[last.1 := last.0]
  }

  /** A name listed once more after position `i` does not take pair `i`'s code;
      a name listed last at `i` does. */
  lemma {:induction false} LastPairWins(pairs: seq<(string, string)>, i: int)
    requires 0 <= i < |pairs|
    requires forall j :: i < j < |pairs| ==> pairs[j].1 != pairs[i].1
    ensures InvertCodes(pairs)[pairs[i].1] == pairs[i].0
  {
    if i < |pairs| - 1 {
      var init := pairs[..|pairs| - 1];
      assert init[i] == pairs[i];
      LastPairWins(init, i);
    }
  }

  /** `two_letter_state_code`: `codes` stands for `state_codes.items()`, the
      (code, name) pairs of the loaded state-code object in key order; its codes
      are distinct, as the keys of a dictionary are. */
  function TwoLetterStateCode(stateName: string, codes: seq<(string, string)>): (r: string)
    ensures (exists code :: (code, stateName) in codes) ==> (r, stateName) in codes
    ensures (forall i :: 0 <= i < |codes| ==> codes[i].1 != stateName) ==> r == stateName
  {
    var byName := InvertCodes(codes);
    if stateName in byName then byName[stateName] else stateName
  }

  // ---------------------------------------------------------------------------
  // The search query

  /** The fields of the event document `search_venues` reads; the two dates are
      the parsed `start_date` and `end_date`. */
  datatype EventDoc = EventDoc(
    venueType: Field<string>,
    locationState: string,
    locationCity: string,
    budget: int,
    attendees: int,
    startDate: Dates.Date,
    endDate: Dates.Date)

  /** `(end_date - start_date).days + 1`: the number of days the event spans,
      counting both ends. */
  function DayCount(start: Dates.Date, end: Dates.Date): int
    requires Dates.Valid(start) && Dates.Valid(end)
  {
    Dates.Ordinal(end) - Dates.Ordinal(start) + 1
  }

  /** The day count is 1 for a one-day event, more than 1 exactly when the event
      ends on a later date, and below 1 when the end date precedes the start. */
  lemma DayCountInclusive(start: Dates.Date, end: Dates.Date)
    requires Dates.Valid(start) && Dates.Valid(end)
    ensures DayCount(start, end) == 1 <==> start == end
    ensures DayCount(start, end) > 1 <==> Dates.Before(start, end)
    ensures DayCount(start, end) < 1 <==> Dates.Before(end, start)
  {
    Dates.OrdinalOrder(start, end);
    Dates.OrdinalOrder(end, start);
  }

  /** An event running from one day to the next spans two days, across month and year ends. */
  lemma DayCountOfNextDay(start: Dates.Date)
    requires Dates.Valid(start)
    requires start.year < 9999 || start.month < 12 || start.day < 31
    ensures DayCount(start, Dates.NextDay(start)) == 2
  {
    Dates.NextDayOrdinal(start);
  }

  /** `f"{days} days"` when there is more than one day, else `f"{days} day"`. */
  function DaysText(days: int): (r: string)
    ensures Text.StartsWith(r, Text.IntToString(days))
    ensures Text.EndsWith(r, " days") <==> days > 1
    ensures Text.EndsWith(r, " day") <==> days <= 1
  {
    var n := Text.IntToString(days);
    if days > 1 then
      var r := n + " days";
      assert r[..|n|] == n;
      Text.EndsWithAppended(n, " days");
      assert r[|r| - 1] == 's';
      assert !Text.EndsWith(r, " day") by {
        assert r[|r| - 2..] == "ys";
      }
      r
    else
      var r := n + " day";
      assert r[..|n|] == n;
      Text.EndsWithAppended(n, " day");
      assert r[|r| - 1] == 'y';
      r
  }

  const DefaultVenueType := "Corporate Event"

  /** The venue type as it appears in the query: the default when the key is
      missing, and Python's "None" when it holds null. */
  function VenueTypeText(venueType: Field<string>): (t: string)
    ensures venueType.Absent? ==> t == DefaultVenueType
    ensures venueType.Null? ==> t == "None"
    ensures venueType.Present? ==> t == venueType.value
  {
    match venueType
    case Absent => DefaultVenueType
    case Null => "None"
    case Present(v) => v
  }

  /** What `search_venues` computes before it calls the search service. */
  datatype SearchPlan = SearchPlan(venueType: string, city: string, state: string, days: int, query: string)

  function PlanSearch(event: EventDoc, codes: seq<(string, string)>): (p: SearchPlan)
    requires Dates.Valid(event.startDate) && Dates.Valid(event.endDate)
    ensures p.venueType == VenueTypeText(event.venueType)
    ensures p.state == TwoLetterStateCode(event.locationState, codes) && p.city == event.locationCity
    ensures p.days == DayCount(event.startDate, event.endDate)
    ensures p.query == p.venueType + " venues in " + p.city + ", " + p.state + " for "
                       + Text.IntToString(event.attendees) + " guests and " + DaysText(p.days)
                       + " under $" + Text.IntToString(event.budget)
  {
    var venueType := VenueTypeText(event.venueType);
    var state := TwoLetterStateCode(event.locationState, codes);
    var days := DayCount(event.startDate, event.endDate);
    SearchPlan(venueType, event.locationCity, state, days,
               SearchQuery(venueType, event.locationCity, state, event.attendees, days, event.budget))
  }

  /** The text of the search query: "type venues in city, state for N guests and
      D day(s) under $B". */
  function SearchQuery(venueType: string, city: string, state: string, attendees: int, days: int, budget: int): string {
    venueType + " venues in " + city + ", " + state + " for " + Text.IntToString(attendees)
      + " guests and " + DaysText(days) + " under $" + Text.IntToString(budget)
  }

  /** The days text tells day counts apart. */
  lemma DaysTextDeterminesDays(d1: int, d2: int)
    requires DaysText(d1) == DaysText(d2)
    ensures d1 == d2
  {
    var s1, s2 := if d1 > 1 then " days" else " day", if d2 > 1 then " days" else " day";
    assert DaysText(d1) == Text.IntToString(d1) + s1;
    assert DaysText(d2) == Text.IntToString(d2) + s2;
    Text.NumberHasNoSeparator(d1);
    Text.NumberHasNoSeparator(d2);
    Text.SplitAtFirst(Text.IntToString(d1), s1, Text.IntToString(d2), s2, ' ');
    Text.IntToStringInjective(d1, d2);
  }

  /** The text between the attendee count and the budget. */
  function QueryMiddle(days: int): string {
    " guests and " + DaysText(days) + " under $"
  }

  /** The query regrouped as the fixed head, then the numbers and the text between them. */
  lemma SearchQueryShape(venueType: string, city: string, state: string, attendees: int, days: int, budget: int)
    ensures SearchQuery(venueType, city, state, attendees, days, budget)
            == (venueType + " venues in " + city + ", " + state + " for ")
               + (Text.IntToString(attendees) + (QueryMiddle(days) + Text.IntToString(budget)))
  {
    var h := venueType + " venues in " + city + ", " + state + " for ";
    var n, g, dt, u, m := Text.IntToString(attendees), " guests and ", DaysText(days), " under $", Text.IntToString(budget);
    assert SearchQuery(venueType, city, state, attendees, days, budget) == h + n + g + dt + u + m;
    Regroup(h, n, g, dt, u, m);
  }

  /** Six texts joined left to right, regrouped around the second and the last. */
  lemma Regroup(h: string, n: string, g: string, dt: string, u: string, m: string)
    ensures h + n + g + dt + u + m == h + (n + ((g + dt + u) + m))
  {
    var x := g + dt + u;
    assert h + n + g + dt + u == h + n + x;
    assert h + n + x + m == h + (n + (x + m));
  }

  /** The query for one venue type and place tells the attendee count, the day
      count and the budget apart: two queries that read the same were built from
      the same three numbers. */
  lemma {:induction false} SearchQueryDeterminesNumbers(venueType: string, city: string, state: string,
                                                         a1: int, d1: int, b1: int, a2: int, d2: int, b2: int)
    requires SearchQuery(venueType, city, state, a1, d1, b1) == SearchQuery(venueType, city, state, a2, d2, b2)
    ensures a1 == a2 && d1 == d2 && b1 == b2
  {
    var head := venueType + " venues in " + city + ", " + state + " for ";
    var t1, t2 := QueryMiddle(d1), QueryMiddle(d2);
    var n1, n2 := Text.IntToString(a1), Text.IntToString(a2);
    var m1, m2 := Text.IntToString(b1), Text.IntToString(b2);
    SearchQueryShape(venueType, city, state, a1, d1, b1);
    SearchQueryShape(venueType, city, state, a2, d2, b2);
    var x1, x2 := n1 + (t1 + m1), n2 + (t2 + m2);
    assert x1 == x2 by {
      assert x1 == (head + x1)[|head|..];
      assert x2 == (head + x2)[|head|..];
    }
    // the attendee count ends at the first space after the head
    Text.NumberHasNoSeparator(a1);
    Text.NumberHasNoSeparator(a2);
    Text.SplitAtFirst(n1, t1 + m1, n2, t2 + m2, ' ');
    Text.IntToStringInjective(a1, a2);
    // the budget begins after the last '$'
    Text.NumberHasNoSeparator(b1);
    Text.NumberHasNoSeparator(b2);
    Text.SplitAtLast(t1, m1, t2, m2, '$');
    Text.IntToStringInjective(b1, b2);
    // the days text sits between the fixed words
    var guests, under := " guests and ", " under $";
    assert DaysText(d1) == t1[|guests|..|t1| - |under|];
    assert DaysText(d2) == t2[|guests|..|t2| - |under|];
    DaysTextDeterminesDays(d1, d2);
  }

  // ---------------------------------------------------------------------------
  // Collecting candidate venues

  /** What may be learned about a venue's phone number: not looked up yet, or the
      lookup's answer (None when it found nothing). */
  datatype ContactLookup = NotLookedUp | LookedUp(phone: Option<string>)

  /** A venue the language model extracted (`VenueDetails`), plus the
      `contact_phone_number` key once it has been looked up. */
  datatype Candidate = Candidate(
    name: string,
    capacity: Option<int>,
    pricingMin: Option<int>,
    pricingMax: Option<int>,
    location: Option<string>,
    amenities: Option<seq<string>>,
    url: Option<string>,
    contact: ContactLookup)

  /** The outcome of `search_venues`: the URLs sent to the extract service (None
      when it is not called) and the venues gathered. */
  datatype Collected = Collected(extractRequest: Option<seq<string>>, venues: seq<Candidate>)

  /** `search_venues` after the web search: `urls` are the search hits, `extract`
      the extract service (raw page contents for a list of URLs) and `llm` the
      model's extraction from one page. The per-page lists are concatenated in order. */
  function CollectVenues(urls: seq<string>, extract: seq<string> -> seq<string>, llm: string -> seq<Candidate>): (c: Collected)
    ensures c.extractRequest.None? <==> urls == []
    ensures c.extractRequest.Some? ==> c.extractRequest.value == urls
    ensures urls == [] ==> c.venues == []
    ensures urls != [] ==> c.venues == PerPage(extract(urls), llm)
  {
    if |urls| > 0 then Collected(Some(urls), PerPage(extract(urls), llm)) else Collected(None, [])
  }

  /** The `extend` loop: the model's venues for each page, in page order. */
  function PerPage(pages: seq<string>, llm: string -> seq<Candidate>): (r: seq<Candidate>)
    ensures forall i, v :: 0 <= i < |pages| && v in llm(pages[i]) ==> v in r
    ensures forall v :: v in r ==> exists i :: 0 <= i < |pages| && v in llm(pages[i])
  {
    if pages == [] then []
    else
      var rest := PerPage(pages[1..], llm);
      assert forall i :: 1 <= i < |pages| ==> pages[i] == pages[1..][i - 1];
      llm(pages[0]) + rest
  }

  /** Extending page by page: the venues of a longer page list are those of the
      shorter one followed by the new pages' venues. */
  lemma {:induction false} PerPageAppend(a: seq<string>, b: seq<string>, llm: string -> seq<Candidate>)
    ensures PerPage(a + b, llm) == PerPage(a, llm) + PerPage(b, llm)
  {
    if a == [] {
      assert a + b == b;
    } else {
      assert (a + b)[0] == a[0];
      assert (a + b)[1..] == a[1..] + b;
      PerPageAppend(a[1..], b, llm);
    }
  }

  // ---------------------------------------------------------------------------
  // Contact lookup

  /** The query `extract_venue_contact_info` looks a venue's phone up with:
      "name, location" when the location is non-empty, else the name alone. */
  function ContactQuery(v: Candidate): (q: string)
    ensures Text.StartsWith(q, v.name)
    ensures Truthy(v.location) <==> |q| > |v.name|
    ensures Truthy(v.location) ==> q[|v.name|..] == ", " + v.location.value
  {
    if Truthy(v.location) then
      var q := v.name + ", " + v.location.value;
      assert q[..|v.name|] == v.name;
      q
    else v.name
  }

  /** The number `get_phone_number` returns: the function returns this fixed
      number before its place lookup, so the lookup is never reached. */
  const PlaceholderPhone := "+14083388934"

  /** `get_phone_number`: the same number whatever the query. */
  function GetPhoneNumber(query: string): (phone: Option<string>)
    ensures phone == Some(PlaceholderPhone)
  {
    Some(PlaceholderPhone)
  }

  /** `extract_venue_contact_info`: every venue of `venues` (the agent's stored
      venues when None) gets the number looked up for its query; nothing else
      changes. */
  function ExtractVenueContactInfo(venues: Option<seq<Candidate>>, stored: seq<Candidate>): (r: seq<Candidate>)
    ensures var vs := venues.GetOr(stored);
            && |r| == |vs|
            && forall i :: 0 <= i < |vs| ==> r[i] == vs[i].(contact := LookedUp(GetPhoneNumber(ContactQuery(vs[i]))))
  {
    var vs := venues.GetOr(stored);
    seq(|vs|, i requires 0 <= i < |vs| => vs[i].(contact := LookedUp(GetPhoneNumber(ContactQuery(vs[i])))))
  }

  /** As written, every venue is given the same contact number, so every
      negotiation call would go to one phone. */
  lemma AllVenuesShareOnePhone(venues: seq<Candidate>, i: int, j: int)
    requires 0 <= i < |venues| && 0 <= j < |venues|
    ensures ExtractVenueContactInfo(Some(venues), [])[i].contact == ExtractVenueContactInfo(Some(venues), [])[j].contact
    ensures ExtractVenueContactInfo(Some(venues), [])[i].contact == LookedUp(Some(PlaceholderPhone))
  {
  }

  // ---------------------------------------------------------------------------
  // Saving

  /** A venue `save_venues` keeps: its url is non-empty and starts with "http". */
  predicate Saveable(v: Candidate) {
    Truthy(v.url) && Text.StartsWith(v.url.value, "http")
  }

  /** `save_venues`: the venues list stored on the event (and returned), which is
      the input filtered to saveable venues in their original order. */
  function SaveVenues(venues: seq<Candidate>): (saved: seq<Candidate>)
    ensures forall v :: v in saved <==> v in venues && Saveable(v)
    ensures |saved| <= |venues|
  {
    Seqs.Filter(venues, Saveable)
  }

  /** Saving keeps order: the venues saved from two lists joined are those saved
      from the first followed by those saved from the second. Saving what was
      saved changes nothing. */
  lemma SaveVenuesOrder(a: seq<Candidate>, b: seq<Candidate>)
    ensures SaveVenues(a + b) == SaveVenues(a) + SaveVenues(b)
    ensures SaveVenues(SaveVenues(a)) == SaveVenues(a)
  {
    Seqs.FilterAppend(a, b, Saveable);
    Seqs.FilterIdempotent(a, Saveable);
  }
}

=== FILE: venue_search_utils.dfy ===
/** Venue search helpers (agents/venue_searching_agent/utils.py): the state-name
    table, the venue rows inserted after a nearby search, the headers of the email
    that tells the customer about the venues, and the reading of an event's email
    thread as a conversation for the reply agent.

    The database tables are sequences of rows in the order the database returns
    them; the email service, the language model and the markdown renderer are
    parameters; the sending domain is configuration. */
module VenueSearchUtils {
  import opened Wrappers
  import Text
  import Seqs
  import Dates
  import NearbySearch
  import EventDetails

  // ---------------------------------------------------------------------------
  // State names

  /** `STATE_TO_CODE`: lower-case state name to postal code. */
  const StateToCode: map<string, string> := map[
    "alabama" := "AL", "alaska" := "AK", "arizona" := "AZ", "arkansas" := "AR",
    "california" := "CA", "colorado" := "CO", "connecticut" := "CT", "delaware" := "DE",
    "florida" := "FL", "georgia" := "GA", "hawaii" := "HI", "idaho" := "ID",
    "illinois" := "IL", "indiana" := "IN", "iowa" := "IA", "kansas" := "KS",
    "kentucky" := "KY", "louisiana" := "LA", "maine" := "ME", "maryland" := "MD",
    "massachusetts" := "MA", "michigan" := "MI", "minnesota" := "MN", "mississippi" := "MS",
    "missouri" := "MO", "montana" := "MT", "nebraska" := "NE", "nevada" := "NV",
    "new hampshire" := "NH", "new jersey" := "NJ", "new mexico" := "NM", "new york" := "NY",
    "north carolina" := "NC", "north dakota" := "ND", "ohio" := "OH", "oklahoma" := "OK",
    "oregon" := "OR", "pennsylvania" := "PA", "rhode island" := "RI", "south carolina" := "SC",
    "south dakota" := "SD", "tennessee" := "TN", "texas" := "TX", "utah" := "UT",
    "vermont" := "VT", "virginia" := "VA", "washington" := "WA", "west virginia" := "WV",
    "wisconsin" := "WI", "wyoming" := "WY"
  ]

  predicate IsUpper(c: char) {
    'A' <= c <= 'Z'
  }

  /** What the search tool's `state` argument must match: two capital letters. */
  predicate IsStateCode(s: string) {
    |s| == 2 && IsUpper(s[0]) && IsUpper(s[1])
  }

  /** `STATE_TO_CODE.get(state.lower(), state)`: a full state name in any case
      becomes its code; anything else is returned unchanged. */
  function StateCode(state: string): (r: string)
    ensures Text.ToLower(state) in StateToCode ==> r == StateToCode[Text.ToLower(state)]
    ensures Text.ToLower(state) !in StateToCode ==> r == state
  {
    var key := Text.ToLower(state);
    if key in StateToCode then StateToCode[key] else state
  }

  /** The lookup ignores the case of a full name, and a value that already is a
      code is kept as it is. */
  lemma StateCodeIgnoresCase(state: string)
    ensures StateCode(state) == StateCode(Text.ToLower(state)) || Text.ToLower(state) !in StateToCode
  {
    Text.ToLowerIdempotent(state);
  }

  // ---------------------------------------------------------------------------
  // Venue rows

  /** A row of the events table, projected onto the columns these helpers read
      (the negotiation endpoints read another projection of the same table); each
      column but the id may be null. */
  datatype EventRow = EventRow(id: string, userId: Option<string>, city: Option<string>, state: Option<string>,
                               venueType: Option<string>)

  /** What `.data[0]` raises on a query that returned no rows. */
  const NoRowError := "IndexError: list index out of range"

  /** The first event with the given id: the row `.eq("id", event_id)` returns. */
  function EventById(events: seq<EventRow>, id: string): (r: Option<EventRow>)
    ensures r.None? <==> forall i :: 0 <= i < |events| ==> events[i].id != id
    ensures r.Some? ==> exists i :: 0 <= i < |events| && events[i] == r.value && r.value.id == id
                          && forall j :: 0 <= j < i ==> events[j].id != id
  {
    if events == [] then None
    else if events[0].id == id then Some(events[0])
    else
      var r := EventById(events[1..], id);
      assert forall i :: 1 <= i < |events| ==> events[i] == events[1..][i - 1];
      if r.Some? then
        var k :| 0 <= k < |events[1..]| && events[1..][k] == r.value && r.value.id == id
                 && forall j :: 0 <= j < k ==> events[1..][j].id != id;
        assert events[k + 1] == r.value;
        r
      else r
  }

  /** One row inserted into the venues table: the full column set the insert
      writes (the negotiation endpoints read a projection of the same table). */
  datatype VenueRow = VenueRow(
    eventId: string,
    googlePlaceId: string,
    name: Option<string>,
    address: Option<string>,
    phone: Option<string>,
    website: string,
    rating: Option<real>,
    ratingCount: Option<int>,
    latitude: Option<real>,
    longitude: Option<real>,
    googleTypes: Option<seq<string>>,
    pricing: Option<string>)

  /** The row built for one venue returned by the nearby search. */
  function RowOf(eventId: string, v: NearbySearch.NearbyVenue, pricing: Option<string>): VenueRow {
    VenueRow(eventId, v.placeId, v.name, v.address, v.phone, v.website, v.rating, v.ratingCount,
             v.lat, v.lng, v.types, pricing)
  }

  /** Reading a row back as a venue. */
  function VenueOf(row: VenueRow): NearbySearch.NearbyVenue {
    NearbySearch.NearbyVenue(row.googlePlaceId, row.name, row.address, row.phone, row.website,
                             row.rating, row.ratingCount, row.latitude, row.longitude, row.googleTypes)
  }

  /** A row keeps everything the search returned about its venue. */
  lemma RowKeepsVenue(eventId: string, v: NearbySearch.NearbyVenue, pricing: Option<string>)
    ensures VenueOf(RowOf(eventId, v, pricing)) == v
    ensures RowOf(eventId, v, pricing).eventId == eventId && RowOf(eventId, v, pricing).pricing == pricing
  {
  }

  /** Every venue the search found has a name. */
  predicate AllNamed(found: seq<NearbySearch.NearbyVenue>) {
    forall i :: 0 <= i < |found| ==> found[i].name.Some?
  }

  /** One row per venue, in order, each with the answer to its own pricing question. */
  function Rows(eventId: string, found: seq<NearbySearch.NearbyVenue>, city: string, state: string,
                pricing: string -> Option<string>): (rows: seq<VenueRow>)
    requires AllNamed(found)
    ensures |rows| == |found|
    ensures forall i :: 0 <= i < |found| ==>
              rows[i].eventId == eventId && VenueOf(rows[i]) == found[i] &&
              rows[i].pricing == pricing(NearbySearch.PricingQuery(found[i].name.value, city, state))
  {
    var rows := seq(|found|, i requires 0 <= i < |found| =>
                      RowOf(eventId, found[i], pricing(NearbySearch.PricingQuery(found[i].name.value, city, state))));
    assert forall i :: 0 <= i < |found| ==>
             rows[i].eventId == eventId && VenueOf(rows[i]) == found[i] &&
             rows[i].pricing == pricing(NearbySearch.PricingQuery(found[i].name.value, city, state)) by {
      forall i | 0 <= i < |found|
        ensures rows[i].eventId == eventId && VenueOf(rows[i]) == found[i]
        ensures rows[i].pricing == pricing(NearbySearch.PricingQuery(found[i].name.value, city, state))
      {
        RowKeepsVenue(eventId, found[i], pricing(NearbySearch.PricingQuery(found[i].name.value, city, state)));
      }
    }
    rows
  }

  /** Whether the search tool accepts its arguments: a city, a two-capital-letter
      state code and a venue type. */
  predicate SearchArgumentsValid(event: EventRow) {
    event.state.Some? && event.city.Some? && event.venueType.Some? && IsStateCode(StateCode(event.state.value))
  }

  /** `process_venue_search` from the event lookup on: `events` is the events
      table, `found` what the search tool returns or raises, and `pricing` answers
      the pricing question. A missing event row and a null state raise before the
      search; the search tool refuses arguments that fail its schema and the
      pricing tool a venue without a name, each by raising. On success the result
      is the insert sent to the venues table, or None when there is nothing to
      insert. */
  function ProcessVenueSearch(eventId: string, events: seq<EventRow>, found: Result<seq<NearbySearch.NearbyVenue>, string>,
                              pricing: string -> Option<string>): (r: Result<Option<seq<VenueRow>>, string>)
    ensures r.Success? <==> EventById(events, eventId).Some? && SearchArgumentsValid(EventById(events, eventId).value)
                            && found.Success? && AllNamed(found.value)
    ensures EventById(events, eventId).None? ==> r == Failure(NoRowError)
    ensures EventById(events, eventId).Some? && SearchArgumentsValid(EventById(events, eventId).value) && found.Failure?
            ==> r == Failure(found.error)
    ensures r.Success? ==> (r.value.None? <==> found.value == [])
    ensures r.Success? && r.value.Some? ==>
              var event := EventById(events, eventId).value;
              var rows := r.value.value;
              && |rows| == |found.value|
              && forall i :: 0 <= i < |found.value| ==>
                   rows[i].eventId == eventId && VenueOf(rows[i]) == found.value[i] &&
                   rows[i].pricing == pricing(NearbySearch.PricingQuery(found.value[i].name.value, event.city.value, StateCode(event.state.value)))
  {
    match EventById(events, eventId)
    case None => Failure(NoRowError)
    case Some(event) =>
      if event.state.None? then Failure("AttributeError: 'NoneType' object has no attribute 'lower'")
      else if !SearchArgumentsValid(event) then Failure("ValidationError: search_nearby_venues arguments")
      else if found.Failure? then Failure(found.error)
      else if !AllNamed(found.value) then Failure("ValidationError: get_venue_pricing name")
      else
        var rows := Rows(eventId, found.value, event.city.value, StateCode(event.state.value), pricing);
        if rows == [] then Success(None) else Success(Some(rows))
  }

  // ---------------------------------------------------------------------------
  // The email about the venues

  const SenderName := "Andrew from EventPilot "
  const SubjectPrefix := "Venue Recommendations for Your Upcoming Event on "

  /** The message `generate_email_about_venues` returns; `text` is the model's
      reply and `html` its markdown rendering. */
  datatype EmailParams = EmailParams(from: string, to: string, replyTo: string, subject: string, html: string, text: string)

  /** The address the venue emails come from. */
  function Mailbox(domain: string): string {
    "andrew@" + domain
  }

  /** "Andrew from EventPilot <andrew@domain>". */
  function SenderHeader(domain: string): string {
    SenderName + ['<'] + Mailbox(domain) + ">"
  }

  function ReplyTo(eventId: string, domain: string): string {
    "event+" + eventId + "@" + domain
  }

  function GenerateEmailAboutVenues(eventId: string, toEmail: string, domain: string, start: Dates.Date,
                                    text: string, html: string): (e: EmailParams)
    requires Dates.Valid(start)
    ensures e.from == SenderHeader(domain) && e.to == toEmail && e.replyTo == ReplyTo(eventId, domain)
    ensures Text.StartsWith(e.subject, SubjectPrefix)
    ensures Dates.ParseMonthDay(e.subject[|SubjectPrefix|..]) == Some((start.month, start.day))
    ensures e.text == text && e.html == html
  {
    var subject := SubjectPrefix + Dates.MonthDay(start);
    assert subject[..|SubjectPrefix|] == SubjectPrefix;
    assert subject[|SubjectPrefix|..] == Dates.MonthDay(start);
    Dates.ParseMonthDayRoundTrip(start);
    EmailParams(SenderHeader(domain), toEmail, ReplyTo(eventId, domain), subject, html, text)
  }

  /** `from.split("<")[1].split(">")[0]`; None where Python raises IndexError. */
  function SenderAddress(from: string): (r: Option<string>)
    ensures r.None? <==> '<' !in from
    ensures r.Some? ==> '<' !in r.value && '>' !in r.value
  {
    match Text.SecondPart(from, '<')
    case None => None
    case Some(part) => Some(Text.BeforeFirst(part, '>'))
  }

  /** The address extraction recovers the address placed in the sender header. */
  lemma SenderAddressRoundTrip(domain: string)
    requires '<' !in domain && '>' !in domain
    ensures SenderAddress(SenderHeader(domain)) == Some(Mailbox(domain))
  {
    var addr := Mailbox(domain);
    assert A: '<' !in SenderName;
    assert B: '<' !in addr && '>' !in addr;
    Text.SecondPartOfJoin(SenderName, '<', addr, ">");
    assert addr + ">" == addr + ['>'] + [];
    Text.BeforeFirstOfJoin(addr, '>', []);
    assert Text.SecondPart(SenderHeader(domain), '<') == Some(Text.BeforeFirst(addr + ">", '<'));
    assert Text.BeforeFirst(addr + ">", '<') == addr + ">";
  }

  /** The event id placed in the reply-to address: the text between "event+" and
      the first '@'. */
  function EventIdOfReplyTo(replyTo: string): Option<string> {
    if Text.StartsWith(replyTo, "event+") then Some(Text.BeforeFirst(replyTo[6..], '@')) else None
  }

  lemma ReplyToRoundTrip(eventId: string, domain: string)
    requires '@' !in eventId
    ensures EventIdOfReplyTo(ReplyTo(eventId, domain)) == Some(eventId)
  {
    var r := ReplyTo(eventId, domain);
    assert r[..6] == "event+";
    assert r[6..] == eventId + ['@'] + domain;
    Text.BeforeFirstOfJoin(eventId, '@', domain);
  }

  // ---------------------------------------------------------------------------
  // Email thread as a conversation

  /** A row of the email_messages table; the columns the reply agent reads may be
      missing, null or set. */
  datatype EmailRow = EmailRow(
    eventId: string,
    resendId: Option<string>,
    fromEmail: Field<string>,
    toEmail: Field<string>,
    subject: Field<string>,
    bodyText: Field<string>,
    bodyHtml: Field<string>)

  /** The row `email_customer_about_venues` stores for a sent email, given the
      email service's id for it, or the exception raised when the sender header
      holds no '<'. */
  function StoredEmail(eventId: string, e: EmailParams, resendId: Option<string>): (r: Result<EmailRow, string>)
    ensures r.Success? <==> '<' in e.from
    ensures r.Success? ==> r.value.eventId == eventId && r.value.resendId == resendId
    ensures r.Success? ==> r.value.toEmail == Present(e.to) && r.value.subject == Present(e.subject)
    ensures r.Success? ==> r.value.bodyText == Present(e.text) && r.value.bodyHtml == Present(e.html)
    ensures r.Success? ==> r.value.fromEmail == Present(SenderAddress(e.from).value)
  {
    match SenderAddress(e.from)
    case None => Failure("IndexError: list index out of range")
    case Some(addr) =>
      Success(EmailRow(eventId, resendId, Present(addr), Present(e.to), Present(e.subject), Present(e.text), Present(e.html)))
  }

  datatype Role = Assistant | Human

  /** A message handed to the reply agent. */
  datatype AgentMessage = AgentMessage(role: Role, content: string)

  /** What `endswith` on a null sender raises. */
  const NullSenderError := "AttributeError: 'NoneType' object has no attribute 'endswith'"

  /** What building a message from a null body raises: its content must be text. */
  const NullContentError := "ValidationError: message content must be a string"

  /** `email.get("body_text", email.get("body_html", ""))`: None when the column
      chosen holds null. */
  function Body(e: EmailRow): Option<string> {
    e.bodyText.Get(e.bodyHtml.Get(Some("")))
  }

  /** One email as a message: outbound (sent from the domain) is the assistant
      speaking; the content is body_text when that key exists, else body_html, else
      "". A null sender, and a null content, raise. */
  function MessageOf(e: EmailRow, domain: string): (m: Result<AgentMessage, string>)
    ensures m.Success? <==> !e.fromEmail.Null? && !e.bodyText.Null? && !(e.bodyText.Absent? && e.bodyHtml.Null?)
    ensures e.fromEmail.Null? ==> m == Failure(NullSenderError)
    ensures !e.fromEmail.Null? && m.Failure? ==> m == Failure(NullContentError)
    ensures m.Success? ==>
              (m.value.role == Assistant <==>
                 (e.fromEmail.Present? && Text.EndsWith(e.fromEmail.value, domain)) || (e.fromEmail.Absent? && domain == ""))
    ensures m.Success? && e.bodyText.Present? ==> m.value.content == e.bodyText.value
    ensures m.Success? && e.bodyText.Absent? && e.bodyHtml.Present? ==> m.value.content == e.bodyHtml.value
    ensures m.Success? && e.bodyText.Absent? && e.bodyHtml.Absent? ==> m.value.content == ""
  {
    if e.fromEmail.Null? then Failure(NullSenderError)
    else
      var from := e.fromEmail.Get(Some("")).value;
      match Body(e)
      case None => Failure(NullContentError)
      case Some(content) => Success(AgentMessage(if Text.EndsWith(from, domain) then Assistant else Human, content))
  }

  /** The loop of `create_email_response` over the thread: one message per email,
      in order, or the exception of the first email that raises. */
  function Conversation(emails: seq<EmailRow>, domain: string): (r: Result<seq<AgentMessage>, string>)
    ensures r.Success? <==> forall i :: 0 <= i < |emails| ==> MessageOf(emails[i], domain).Success?
    ensures r.Success? ==> |r.value| == |emails|
    ensures r.Success? ==> forall i :: 0 <= i < |emails| ==> Success(r.value[i]) == MessageOf(emails[i], domain)
    ensures r.Failure? ==>
              exists i :: 0 <= i < |emails| && MessageOf(emails[i], domain) == Failure(r.error)
                && forall j :: 0 <= j < i ==> MessageOf(emails[j], domain).Success?
  {
    if emails == [] then Success([])
    else
      assert forall i :: 1 <= i < |emails| ==> emails[i] == emails[1..][i - 1];
      match MessageOf(emails[0], domain)
      case Failure(err) => Failure(err)
      case Success(m) =>
        match Conversation(emails[1..], domain)
        case Failure(err) =>
          var k :| 0 <= k < |emails[1..]| && MessageOf(emails[1..][k], domain) == Failure(err)
                   && forall j :: 0 <= j < k ==> MessageOf(emails[1..][j], domain).Success?;
          assert MessageOf(emails[k + 1], domain) == Failure(err);
          Failure(err)
        case Success(rest) => Success([m] + rest)
  }

  /** A thread read in two parts is the two parts' conversations one after the other. */
  lemma {:induction false} ConversationAppend(a: seq<EmailRow>, b: seq<EmailRow>, domain: string)
    requires Conversation(a, domain).Success? && Conversation(b, domain).Success?
    ensures Conversation(a + b, domain) == Success(Conversation(a, domain).value + Conversation(b, domain).value)
  {
    var ab := a + b;
    assert forall i :: 0 <= i < |ab| ==> ab[i] == if i < |a| then a[i] else b[i - |a|];
    var c := Conversation(ab, domain);
    var expected := Conversation(a, domain).value + Conversation(b, domain).value;
    assert c.Success?;
    assert |c.value| == |expected|;
    assert forall i :: 0 <= i < |ab| ==> c.value[i] == expected[i];
    assert c.value == expected;
  }

  /** The emails of one event. The rows are taken in the order given, which
      stands for the table's creation order. */
  function Thread(rows: seq<EmailRow>, eventId: string): (t: seq<EmailRow>)
    ensures forall e :: e in t <==> e in rows && e.eventId == eventId
  {
    Seqs.Filter(rows, (e: EmailRow) => e.eventId == eventId)
  }

  /** Whether the users table holds the event's customer. */
  predicate HasCustomer(users: seq<EventDetails.UserRow>, userId: Option<string>) {
    userId.Some? && exists i :: 0 <= i < |users| && users[i].id == userId.value
  }

  /** `create_email_response` up to the reply agent: the messages handed to it.
      The thread is read first; then the event and its customer are looked up,
      and a lookup that finds no row raises. */
  function CreateEmailResponse(rows: seq<EmailRow>, eventId: string, domain: string, events: seq<EventRow>,
                               users: seq<EventDetails.UserRow>): (r: Result<seq<AgentMessage>, string>)
    ensures Conversation(Thread(rows, eventId), domain).Failure? ==> r == Conversation(Thread(rows, eventId), domain)
    ensures r.Success? <==> Conversation(Thread(rows, eventId), domain).Success? && EventById(events, eventId).Some?
                            && HasCustomer(users, EventById(events, eventId).value.userId)
    ensures Conversation(Thread(rows, eventId), domain).Success? && r.Failure? ==> r.error == NoRowError
    ensures r.Success? ==> Success(r.value) == Conversation(Thread(rows, eventId), domain)
  {
    match Conversation(Thread(rows, eventId), domain)
    case Failure(err) => Failure(err)
    case Success(messages) =>
      match EventById(events, eventId)
      case None => Failure(NoRowError)
      case Some(event) => if HasCustomer(users, event.userId) then Success(messages) else Failure(NoRowError)
  }

  /** Storing the row of an email sent about the venues extends the event's
      conversation by one assistant turn carrying the email's text, and leaves
      the other events' conversations as they were. */
  lemma SentEmailEndsConversation(rows: seq<EmailRow>, eventId: string, other: string, e: EmailParams,
                                  resendId: Option<string>, domain: string, events: seq<EventRow>,
                                  users: seq<EventDetails.UserRow>)
    requires e.from == SenderHeader(domain)
    requires '<' !in domain && '>' !in domain
    requires CreateEmailResponse(rows, eventId, domain, events, users).Success?
    requires other != eventId
    ensures StoredEmail(eventId, e, resendId).Success?
    ensures var after := rows + [StoredEmail(eventId, e, resendId).value];
            && CreateEmailResponse(after, eventId, domain, events, users)
               == Success(CreateEmailResponse(rows, eventId, domain, events, users).value + [AgentMessage(Assistant, e.text)])
            && CreateEmailResponse(after, other, domain, events, users) == CreateEmailResponse(rows, other, domain, events, users)
  {
    SenderAddressRoundTrip(domain);
    var row := StoredEmail(eventId, e, resendId).value;
    MailboxRowIsAssistantTurn(row, domain, e.text);
    var mine := (x: EmailRow) => x.eventId == eventId;
    var theirs := (x: EmailRow) => x.eventId == other;
    Seqs.FilterAppend(rows, [row], mine);
    Seqs.FilterAppend(rows, [row], theirs);
    assert Seqs.Filter([row], mine) == [row] by {
      assert [row][1..] == [];
    }
    assert Seqs.Filter([row], theirs) == [] by {
      assert [row][1..] == [];
    }
    assert Thread(rows + [row], other) == Thread(rows, other);
    assert Thread(rows + [row], eventId) == Thread(rows, eventId) + [row];
    ConversationAppend(Thread(rows, eventId), [row], domain);
  }

  /** An email from the domain's mailbox is the assistant speaking its body text. */
  lemma MailboxRowIsAssistantTurn(row: EmailRow, domain: string, text: string)
    requires row.fromEmail == Present(Mailbox(domain)) && row.bodyText == Present(text)
    ensures Conversation([row], domain) == Success([AgentMessage(Assistant, text)])
  {
    Text.EndsWithAppended("andrew@", domain);
    assert MessageOf(row, domain) == Success(AgentMessage(Assistant, text));
    var c := Conversation([row], domain);
    assert c.Success? && |c.value| == 1 && Success(c.value[0]) == MessageOf(row, domain);
    assert c.value == [AgentMessage(Assistant, text)];
  }

  /** An email whose chosen body is null stops the reply: the whole conversation
      raises, wherever in the thread the email sits. */
  lemma NullBodyRaises(a: seq<EmailRow>, e: EmailRow, b: seq<EmailRow>, domain: string)
    requires !e.fromEmail.Null? && Body(e).None?
    ensures Conversation(a + [e] + b, domain).Failure?
  {
    var all := a + [e] + b;
    assert all[|a|] == e;
  }
}

=== FILE: wrappers.dfy ===
/** Failure-compatible wrappers shared by every module of the model.

    - Option<T> stands for a Python `Optional[...]` / a TypeScript value that may be
      `null` or `undefined`.
    - Result<T, E> stands for an operation that either returns or raises.
    - Field<T> stands for one key of a JSON object as Python's `dict.get` sees it: the
      key may be missing, present with `null`, or present with a value.
 */
module Wrappers {

  datatype Option<+T> = None | Some(value: T) {

    function GetOr(default: T): T {
      match this
      case Some(v) => v
      case None => default
    }
  }

  datatype Result<+T, +E> = Success(value: T) | Failure(error: E)

  /** One key of a JSON object. */
  datatype Field<+T> = Absent | Null | Present(value: T) {

    /** Python's `d.get(key, default)`: the default only when the key is missing;
        a key present with `null` yields None. */
    function Get(default: Option<T>): (r: Option<T>)
      ensures Absent? ==> r == default
      ensures Null? ==> r == None
      ensures Present? ==> r == Some(value)
    {
      match this
      case Absent => default
      case Null => None
      case Present(v) => Some(v)
    }
  }

  /** JavaScript / Python truthiness of an optional string: None and "" are falsy. */
  predicate Truthy(s: Option<string>) {
    s.Some? && s.value != ""
  }
}
